=== FILE: README.md ===
# ddbMapper core in Dafny

This project models the core of ddbMapper, an annotation-driven mapper between Java
records and DynamoDB items, in Dafny. It proves properties of the model.

The model covers five parts:

- **The value codec of `DDBMapper`.**
  - `extractField` encodes a Java value into an `AttributeValue`, picking the wire kind from
    the declared type. List elements and map values are encoded by their own runtime class,
    and nulls are dropped.
  - `getAttributeValuePayload` decodes by the declared type of the destination.
  - `populateEntity` fills a record of a `@DDBTable` or `@DDBDocument` class from an item. It
    reads each field under the name `getByDDBAnnotationPresent` gives it.
- **Table metadata and key generation.**
  - `extractEntityMeta` makes one pass over a `@DDBTable` record's declared fields in one of
    the three modes `GET_MODE`, `PUT_MODE` and `UPDATE_MODE`. It builds the table name, the
    hash and range keys, the attribute map and the update map.
  - `keyGen` generates a missing key in PUT mode under the field's `KEY_GEN` strategy and writes
    it back into the record. The strategies are `NONE` (the default), `UUID`, `MONTH`, `DAY`,
    `NUM` and `NUM_STR`.
  - `generateRowId` packs a timestamp relative to `CUSTOMEPOCH` with two random draws, in
    wrapping 64-bit arithmetic.
- **The single-item operations of `DynamoCRUDRepository`.** The model covers the request each
  of `getItem`, `queryByRangeKey`, `saveItem`, `updateItem` and `deleteItem` sends, built from
  the metadata, and the records `getItem` and `queryByRangeKey` populate from the store's
  answers.
- **The batch helpers.** `batchWritePer25Item` splits write requests into calls of at most 25.
  `batchGetPer100Item` counts keys into boxes of 100, but each call sends the whole key list
  (see Findings).
- **Stand-ins for outside pieces.**
  - Reflection over annotations is replaced by a schema of field descriptors
    (`Descriptors.Field`), in whatever order reflection (`getDeclaredFields`)
    returns them; the lemmas hold for any order.
  - `Class.newInstance()` is replaced by the field values each class's no-argument constructor
    leaves, given with the class, or their absence when there is no accessible such constructor.
  - The JDK's date and floating-point text conversions are a `Formats` parameter.
  - The clock, `UUID.randomUUID()` and `Math.random()` are a `Draw` parameter, one per field.
  - The store's replies are a `Store` parameter.
  - Every operation returns the request it would send, together with its result or exception.

Modules and files:

| file | module | what it models |
|---|---|---|
| `results.dfy` | `Results` | Java's exceptions as `Result` values |
| `java_numbers.dfy` | `JavaNumbers` | `int`/`long` ranges, wrap-around, `toString`, `parseInt`/`parseLong` |
| `java_values.dfy` | `JavaValues` | declared types and runtime values |
| `wire.dfy` | `Wire` | `AttributeValue` and its accessors |
| `descriptors.dfy` | `Descriptors` | the annotations as field descriptors |
| `codec.dfy` | `Codec` | the codec |
| `codec_props.dfy` | `CodecProps` | properties of the codec |
| `keygen.dfy` | `KeyGen` | key generation |
| `keygen_props.dfy` | `KeyGenProps` | properties of key generation |
| `resolver.dfy` | `Resolver` | `extractEntityMeta` |
| `resolver_props.dfy` | `ResolverProps` | properties of `extractEntityMeta` |
| `repository.dfy` | `Repository` | the single-item operations |
| `repository_props.dfy` | `RepositoryProps` | properties of the single-item operations |
| `batch.dfy` | `Batch` | the batch helpers |

How the pass over the fields is modelled:

- `Resolver.Prefix(input, n)` is the pass over the first `n` fields.
- Each step reads the field's value on entry. `Resolver.PrefixNotReached` proves this is the
  value the record holds when the pass reaches the field, since only a field's own step writes
  it back.
- `ResolverProps` describes the result against three reference definitions:
  - `Settled`: the key or value each field settles on;
  - `FieldOk`: whether that field gets past `keyGen`;
  - `AttrKey` and `AttrName`: the name each field is written under.

## Model

Source paths are relative to the repository root.

| member | source | states |
|---|---|---|
| JavaNumbers.Wrap64 | src/com/freebird/repository/ddbmapper/DDBMapper.java:368-370 | the `long` result is congruent to the exact value modulo 2^64 and equals it whenever the exact value is in `long` range |
| JavaNumbers.ParseDecimal | src/com/freebird/repository/ddbmapper/DDBMapper.java:119-125 | a successful parse lies in the requested range, and every failure is a NumberFormatException carrying the rejected text |
| JavaNumbers.ToDecimal | src/com/freebird/repository/ddbmapper/DDBMapper.java:315 | the `toString` text of a number is never empty and starts with a minus sign exactly when the number is negative; `ParseToDecimal` and `ToDecimalInjective` state that it reads back to that number and to no other |
| JavaNumbers.ParseInt | src/com/freebird/repository/ddbmapper/DDBMapper.java:117-121 | a rejected text is a NumberFormatException carrying that text; `IntRoundTrip` states that the text of any number reads back to it exactly when it fits 32 bits and is a NumberFormatException otherwise, and `CodecProps.MalformedIntFails` that text which is not a decimal `int` is rejected |
| JavaNumbers.ParseLong | src/com/freebird/repository/ddbmapper/DDBMapper.java:122-126 | a rejected text is a NumberFormatException carrying that text; `LongRoundTrip` states that the text of any number reads back to it exactly when it fits 64 bits and is a NumberFormatException otherwise |
| JavaNumbers.ParseToDecimal | src/com/freebird/repository/ddbmapper/DDBMapper.java:117-126 | the decimal text `toString` prints parses back to the same number under any range that contains it, and is a NumberFormatException carrying that text under any range that does not |
| JavaNumbers.IntRoundTrip | src/com/freebird/repository/ddbmapper/DDBMapper.java:117-121 | `new Integer(text)` on the decimal text of any number gives that number back exactly when it lies in the 32-bit range, and otherwise throws a NumberFormatException for the text, so every `int` round-trips |
| JavaNumbers.LongRoundTrip | src/com/freebird/repository/ddbmapper/DDBMapper.java:122-126 | `new Long(text)` on the decimal text of any number gives that number back exactly when it lies in the 64-bit range, and otherwise throws a NumberFormatException for the text, so every `long` round-trips |
| JavaNumbers.ToDecimalInjective | src/com/freebird/repository/ddbmapper/DDBMapper.java:315 | two numbers with the same decimal text are equal, so the number kind of the wire format loses nothing for integers |
| JavaValues.RuntimeType | src/com/freebird/repository/ddbmapper/DDBMapper.java:324-342 | the runtime class of a non-null list element or map value admits that value and is never a primitive type |
| JavaValues.NonNull | src/com/freebird/repository/ddbmapper/DDBMapper.java:324-328 | the kept elements are exactly the non-null elements of the list, and there are no more of them than elements |
| JavaValues.NonNullEntries | src/com/freebird/repository/ddbmapper/DDBMapper.java:336-343 | the kept entries are exactly the entries with a non-null value, unchanged |
| Descriptors.NewInstance | src/com/freebird/repository/ddbmapper/DDBMapper.java:179 | no contract of its own: `Repository.Fresh` states that `newInstance()` gives a well-typed record holding exactly what the class's constructor leaves, or an InstantiationException when the class has no accessible no-argument constructor; `RepositoryProps.GetItemResult` states that fields the item does not carry keep that value |
| Descriptors.WireName | src/com/freebird/repository/ddbmapper/DDBMapper.java:83-93 | no contract of its own: `CodecProps.PopulateEntitySpec` states that `populateEntity` reads each field under this name, and `ResolverProps.ReadNameIsWriteName` states when it differs from the name `extractEntityMeta` writes the field under (a key field that also carries a `@DDBAttr` of another name) |
| Codec.Encode | src/com/freebird/repository/ddbmapper/DDBMapper.java:301-362 | null, and only null, has no wire value; numbers become the number kind, `String` and `Date` the string kind, a boolean its own value; a list becomes a list with one member per non-null element; a map or any other class becomes a map |
| Codec.EncodeItems | src/com/freebird/repository/ddbmapper/DDBMapper.java:323-330 | one wire member per element handed to it, so a list's wire form is as long as its non-null elements |
| Codec.EncodeEntries | src/com/freebird/repository/ddbmapper/DDBMapper.java:334-345 | the wire map has exactly the keys whose values are non-null |
| Codec.EncodeElement | src/com/freebird/repository/ddbmapper/DDBMapper.java:324-342 | no contract of its own: `CodecProps.EncodeListMembers` and `CodecProps.EncodeMapMembers` state that each non-null member is encoded by its runtime class, and `CodecProps.ElementRoundTrip` that it decodes back to itself |
| Codec.ElementType | src/com/freebird/repository/ddbmapper/DDBMapper.java:141-163 | no contract of its own: the member type it picks is specified by `CodecProps.TopListUsesTypeArgument` (a top-level field uses its type argument, a raw type is a ClassCastException), `CodecProps.NestedListHoldsStrings` and `CodecProps.NestedMapHoldsStrings` (a nested collection holds strings) |
| Codec.TypeName | src/com/freebird/repository/ddbmapper/DDBMapper.java:141-179 | the name handed to `Class.forName` for a member type starts with the class the type erases to, and is longer exactly when the type is parameterized, in which case its type arguments follow in angle brackets, so it names no class |
| Codec.DecodeScalar | src/com/freebird/repository/ddbmapper/DDBMapper.java:117-177 | a scalar decodes either to null or to a value the declared type admits |
| Codec.Decode | src/com/freebird/repository/ddbmapper/DDBMapper.java:109-188 | a successful decode is null or a value the declared type admits |
| Codec.DecodeElement | src/com/freebird/repository/ddbmapper/DDBMapper.java:150-168 | a decoded member is null or admitted by the element type |
| Codec.DecodeItems | src/com/freebird/repository/ddbmapper/DDBMapper.java:150-154 | a decoded list has one value per wire member |
| Codec.DecodeEntries | src/com/freebird/repository/ddbmapper/DDBMapper.java:165-169 | a decoded map has exactly the keys of the wire map |
| Codec.PopulateFields | src/com/freebird/repository/ddbmapper/DDBMapper.java:67-77 | no contract of its own: `CodecProps.PopulateFieldsOk`, `PopulateFieldsAssigns`, `PopulateFieldsKeeps` and `PopulateFieldsNames` state when the field loop succeeds, which fields it sets to what, and which it leaves alone |
| Codec.PopulateEntity | src/com/freebird/repository/ddbmapper/DDBMapper.java:63-81 | a value whose class is neither `@DDBTable` nor `@DDBDocument` is a DDBModelException with the mapper's message; a populated record keeps its class |
| CodecProps.EncodeByKind | src/com/freebird/repository/ddbmapper/DDBMapper.java:306-322 | the wire form depends only on the value and the kind of the declared type: primitive and boxed types, `List` and `ArrayList`, and any type argument encode alike |
| CodecProps.EncodeScalars | src/com/freebird/repository/ddbmapper/DDBMapper.java:311-351 | every number becomes the number kind holding its `toString` text (the decimal text for `int` and `long`, the JDK text for `double` and `float`); booleans become their value, strings themselves and dates the ISO-8601 text of the formatter |
| CodecProps.EncodeListMembers | src/com/freebird/repository/ddbmapper/DDBMapper.java:321-331 | the wire list holds the non-null elements in order, each encoded by its own runtime class, and no element is lost when none is null |
| CodecProps.EncodeMapMembers | src/com/freebird/repository/ddbmapper/DDBMapper.java:332-346 | a key is in the wire map exactly when its value is non-null, and that value is encoded by its own runtime class |
| CodecProps.ScalarRoundTrip | src/com/freebird/repository/ddbmapper/DDBMapper.java:117-177 | decoding the encoding of a scalar gives the scalar back, whenever the text conversion of doubles, floats and dates is itself lossless for it |
| CodecProps.AbsentDecodesNull | src/com/freebird/repository/ddbmapper/DDBMapper.java:117-177 | a wire value of the wrong kind for a scalar destination, or an empty date string, decodes to null without an exception |
| CodecProps.MalformedDateFails | src/com/freebird/repository/ddbmapper/DDBMapper.java:171-173 | non-empty text the date formatter rejects is a ParseException carrying that text |
| CodecProps.MalformedIntFails | src/com/freebird/repository/ddbmapper/DDBMapper.java:117-120 | number text that is not a decimal `int` is a NumberFormatException |
| CodecProps.ElementRoundTrip | src/com/freebird/repository/ddbmapper/DDBMapper.java:150-168 | a non-null member encoded by its runtime class decodes back to itself under an element type that admits it |
| CodecProps.DecodeItemsAll | src/com/freebird/repository/ddbmapper/DDBMapper.java:150-153 | when every member decodes, the list decodes, each position holding its member's decoded value |
| CodecProps.DecodeEntriesAll | src/com/freebird/repository/ddbmapper/DDBMapper.java:165-168 | when every value decodes, the map decodes, each key holding its value's decoded value |
| CodecProps.ListRoundTrip | src/com/freebird/repository/ddbmapper/DDBMapper.java:141-155 | a `List<E>` field decodes its own encoding to the same list with its nulls removed |
| CodecProps.MapRoundTrip | src/com/freebird/repository/ddbmapper/DDBMapper.java:156-170 | a `Map<String, E>` field decodes its own encoding to the same map with its null-valued entries removed |
| CodecProps.NestedListHoldsStrings | src/com/freebird/repository/ddbmapper/DDBMapper.java:146-153 | a list nested in another structure always decodes, member by member, to the member's string, or null for a member of any other kind |
| CodecProps.NestedMapHoldsStrings | src/com/freebird/repository/ddbmapper/DDBMapper.java:161-168 | a map nested in another structure always decodes, key by key, to the value's string, or null for a value of any other kind |
| CodecProps.TopListUsesTypeArgument | src/com/freebird/repository/ddbmapper/DDBMapper.java:142-153 | a raw `List` field is a ClassCastException; a `List<E>` field decodes each member as a nested `E` |
| CodecProps.ParameterizedArgumentFails | src/com/freebird/repository/ddbmapper/DDBMapper.java:141-182 | a `List<List<X>>` or `List<Map<String, X>>` field decodes only an empty list; with any member, `Class.forName` of the parameterized type name (such as `java.util.List<java.lang.String>`) is a ClassNotFoundException carrying that name |
| CodecProps.PopulateFieldsOk | src/com/freebird/repository/ddbmapper/DDBMapper.java:67-77 | filling the fields succeeds exactly when every field present in the item decodes to a value the field can hold |
| CodecProps.PopulateFieldsAssigns | src/com/freebird/repository/ddbmapper/DDBMapper.java:69-76 | after a successful fill, every field present in the item holds the value decoded from the item under its wire name |
| CodecProps.PopulateFieldsKeeps | src/com/freebird/repository/ddbmapper/DDBMapper.java:72-76 | a field absent from the item keeps the value it had |
| CodecProps.PopulateFieldsNames | src/com/freebird/repository/ddbmapper/DDBMapper.java:67-77 | filling adds no field the class does not declare |
| CodecProps.PopulateEntitySpec | src/com/freebird/repository/ddbmapper/DDBMapper.java:63-93 | the whole `populateEntity` contract: it refuses unannotated classes; otherwise it succeeds exactly when every present field stores; present fields take their decoded values, read under the wire name (`@DDBAttr`, else `@DDBHashKey`, else `@DDBRangeKey`, else the Java name); absent fields keep theirs; `@DDBIgnore` does not stop a field from being read |
| CodecProps.PopulateKeepsTyped | src/com/freebird/repository/ddbmapper/DDBMapper.java:75 | a populated well-typed record is still well typed: a decoded value is null or of the field's declared type (`Codec.Decode`), and the only value of these that `Field.set` refuses, null into a primitive field, makes the populate fail |
| KeyGen.Generate | src/com/freebird/repository/ddbmapper/DDBMapper.java:269-285 | `NUM` is the only strategy that yields a `long`; every other strategy yields a string |
| KeyGen.RowId | src/com/freebird/repository/ddbmapper/DDBMapper.java:364-371 | whatever the clock and however the 64-bit arithmetic wraps, the low nine bits of a row id are the sequence draw; `KeyGenProps.RowIdLayout` states the full layout where nothing overflows |
| KeyGen.KeyGen | src/com/freebird/repository/ddbmapper/DDBMapper.java:265-298 | a key is generated only in PUT mode, for an empty field, with a strategy other than `NONE`; a generated key is the range key's prefix followed by the text of the generated value when that prefix is non-empty, and the generated value itself otherwise; when a key is to be generated, it succeeds exactly when the field can hold it (a `String` field any strategy's key, a `long` field only an unprefixed `NUM` key), and is otherwise an IllegalArgumentException; any other empty key is a NOKeyException; a present key is kept unchanged; the settled key is never null |
| KeyGenProps.RowIdLayout | src/com/freebird/repository/ddbmapper/DDBMapper.java:364-371 | within the clock range where nothing overflows, the row id is the timestamp shifted left 15 bits, plus the shard shifted left 9 bits, plus the sequence number, and each part can be read back |
| KeyGenProps.RowIdMonotonic | src/com/freebird/repository/ddbmapper/DDBMapper.java:364-371 | a strictly later millisecond gives a strictly larger row id, whatever the random draws |
| KeyGenProps.RowIdInjective | src/com/freebird/repository/ddbmapper/DDBMapper.java:364-371 | two row ids are equal exactly when the millisecond and both random draws are equal |
| KeyGenProps.NumStrIsNumText | src/com/freebird/repository/ddbmapper/DDBMapper.java:273-279 | the `NUM_STR` key parses as a `long` back to the `NUM` key drawn from the same environment |
| Resolver.PrefixFrame | src/com/freebird/repository/ddbmapper/DDBMapper.java:208-257 | one more field either stops at an earlier exception, leaves the record alone, or writes a value of that field's type into that field and no other |
| Resolver.Prefix | src/com/freebird/repository/ddbmapper/DDBMapper.java:208-256 | no contract of its own: the pass over the first `n` declared fields, specified by `ResolverProps.PrefixSucceeds`, `PrefixError`, `PrefixWriteBack` and the slot lemmas below |
| Resolver.StepAt | src/com/freebird/repository/ddbmapper/DDBMapper.java:208-256 | no contract of its own: the dispatch on a field's annotations (hash key, else range key, else ignored, else ordinary), specified by `ResolverProps.PrefixStep` |
| Resolver.HashKeyStep | src/com/freebird/repository/ddbmapper/DDBMapper.java:210-219 | no contract of its own: specified by `ResolverProps.PrefixStepMeta` and `PrefixHashSlot` (the field's settled key, encoded, goes into the hash slot and the attribute map under the annotation's name) |
| Resolver.RangeKeyStep | src/com/freebird/repository/ddbmapper/DDBMapper.java:221-235 | no contract of its own: specified by `ResolverProps.PrefixStepMeta` and `PrefixRangeSlot`; `ResolverProps.RangeRequiredIsDead` states that its `NO Range Key` branch is never taken |
| Resolver.AttributeStep | src/com/freebird/repository/ddbmapper/DDBMapper.java:236-256 | no contract of its own: specified by `ResolverProps.PrefixAttrKeys`, `PrefixUpdateKeys`, `PrefixAttrValue` and `PrefixUpdateValue` (the attribute map in PUT and GET mode, the update map for updateable fields in UPDATE mode) |
| Resolver.PrefixNotReached | src/com/freebird/repository/ddbmapper/DDBMapper.java:208-256 | a field the pass has not yet reached still holds its value on entry |
| Resolver.PrefixTyped | src/com/freebird/repository/ddbmapper/DDBMapper.java:293 | the key write-back keeps every declared field holding a value of its type |
| Resolver.Resolve | src/com/freebird/repository/ddbmapper/DDBMapper.java:201-263 | a value that is not a `@DDBTable` record is a DDBModelException and is left alone; the record afterwards is still an instance of its class |
| ResolverProps.SettledOutsidePut | src/com/freebird/repository/ddbmapper/DDBMapper.java:265-298 | outside PUT mode, a key that gets past `keyGen` is the field's own value |
| ResolverProps.PutGeneratesKey | src/com/freebird/repository/ddbmapper/DDBMapper.java:265-298 | in PUT mode an empty key field with a strategy other than `NONE` and a type that can hold the key gets past `keyGen` and settles on the generated key, which is not null |
| ResolverProps.PrefixStep | src/com/freebird/repository/ddbmapper/DDBMapper.java:208-257 | an exception stops the pass unchanged; otherwise one more field succeeds exactly when that field gets past `keyGen`, and fails with that field's exception |
| ResolverProps.PrefixStepFields | src/com/freebird/repository/ddbmapper/DDBMapper.java:210-235 | a step that succeeds leaves the field holding its settled key or value |
| ResolverProps.PrefixStepMeta | src/com/freebird/repository/ddbmapper/DDBMapper.java:210-256 | a step that succeeds changes the metadata only in the slots its field writes: the attribute map under its attribute name, the update map, and the hash or range slot |
| ResolverProps.PrefixSucceeds | src/com/freebird/repository/ddbmapper/DDBMapper.java:208-259 | the pass succeeds exactly when every field gets past `keyGen` and the mode check |
| ResolverProps.PrefixWriteBack | src/com/freebird/repository/ddbmapper/DDBMapper.java:208-257 | after a successful pass every visited field holds its settled value, generated keys included, and every other field holds its value on entry |
| ResolverProps.PrefixError | src/com/freebird/repository/ddbmapper/DDBMapper.java:208-257 | the exception of the first field that fails is the exception of the whole pass |
| ResolverProps.PrefixFails | src/com/freebird/repository/ddbmapper/DDBMapper.java:208-257 | a failed pass names a first failing field, every earlier field succeeded, and the pass throws that field's exception |
| ResolverProps.RangeRequiredIsDead | src/com/freebird/repository/ddbmapper/DDBMapper.java:221-235 | the pass never throws `NO Range Key`: an empty range key is already a NOKeyException in `keyGen` |
| ResolverProps.OnlyPutWritesBack | src/com/freebird/repository/ddbmapper/DDBMapper.java:265-298 | outside PUT mode the pass never changes the record |
| ResolverProps.PrefixKeepsTable | src/com/freebird/repository/ddbmapper/DDBMapper.java:205-206 | the table name stays the one `@DDBTable` gives |
| ResolverProps.PrefixAttrKeys | src/com/freebird/repository/ddbmapper/DDBMapper.java:210-256 | a name is in the attribute map exactly when some key field, or (in PUT or GET mode) some unignored field, is written under it |
| ResolverProps.PrefixUpdateKeys | src/com/freebird/repository/ddbmapper/DDBMapper.java:250-252 | a name is in the update map exactly when some unignored, updateable non-key field is written under it in UPDATE mode |
| ResolverProps.PrefixAttrValue | src/com/freebird/repository/ddbmapper/DDBMapper.java:210-256 | the last field written under a name decides its attribute value: that field's settled value, encoded |
| ResolverProps.PrefixUpdateValue | src/com/freebird/repository/ddbmapper/DDBMapper.java:250-252 | the last field written under a name decides its update: a PUT of that field's value, encoded |
| ResolverProps.PrefixNoHash | src/com/freebird/repository/ddbmapper/DDBMapper.java:210-213 | without a `@DDBHashKey` field, the hash key name and value stay null |
| ResolverProps.PrefixHashSlot | src/com/freebird/repository/ddbmapper/DDBMapper.java:210-219 | the last `@DDBHashKey` field decides the hash key name, and its encoded settled value decides the hash key value |
| ResolverProps.PrefixNoRange | src/com/freebird/repository/ddbmapper/DDBMapper.java:221-224 | without a range key field, the range key name and value stay null |
| ResolverProps.PrefixRangeSlot | src/com/freebird/repository/ddbmapper/DDBMapper.java:221-232 | the last range key field decides the range key name, and its encoded settled value decides the range key value |
| ResolverProps.ResolveOutcome | src/com/freebird/repository/ddbmapper/DDBMapper.java:201-263 | resolving a table record succeeds exactly when every field gets past resolution; it then carries the table name and leaves every field at its settled value; otherwise it throws the first failing field's exception; outside PUT mode the record is untouched |
| ResolverProps.ReadNameIsWriteName | src/com/freebird/repository/ddbmapper/DDBMapper.java:83-93 | the name `populateEntity` reads a field under equals the name `extractEntityMeta` writes it under, except for a key field that also carries a `@DDBAttr` of another name |
| Repository.ItemKey | src/com/freebird/repository/DynamoCRUDRepository.java:39-42 | the key map holds the hash key name (possibly null) and the range key name when there is one; the range key value wins if the two names coincide |
| Repository.Fresh | src/com/freebird/repository/DynamoCRUDRepository.java:47 | `t.getClass().newInstance()` succeeds exactly when the class has an accessible no-argument constructor, and then gives a well-typed record of that class holding what the constructor leaves; otherwise it is an InstantiationException for the class |
| Repository.PopulateFresh | src/com/freebird/repository/DynamoCRUDRepository.java:47-48 | a fresh record populated from one answer item is a well-typed instance of the class |
| Repository.GetItemOp | src/com/freebird/repository/DynamoCRUDRepository.java:35-52 | `getItem` leaves the record alone; it sends a request exactly when resolution succeeds, and otherwise throws resolution's exception; a null or empty answer is a null result; a non-empty answer gives the fresh instance `populateEntity` fills from it, or the exception of `newInstance()` or of `populateEntity`; a found record is a well-typed instance of the class |
| Repository.PopulateAll | src/com/freebird/repository/DynamoCRUDRepository.java:68-74 | one well-typed record per item found |
| Repository.QueryOp | src/com/freebird/repository/DynamoCRUDRepository.java:54-75 | `queryByRangeKey` sends a query exactly when resolution succeeds, to the table the class names, with the fixed key condition and the placeholders `:pk` and `:typeRange`; its result is the populate loop over the items the query finds, one well-typed record per item |
| Repository.SaveItemOp | src/com/freebird/repository/DynamoCRUDRepository.java:77-84 | `saveItem` puts exactly when resolution succeeds and then returns the caller's record with generated keys written back; otherwise it throws resolution's exception; the record stays well typed either way |
| Repository.UpdateItemOp | src/com/freebird/repository/DynamoCRUDRepository.java:86-95 | `updateItem` leaves the record alone, sends an update exactly when resolution succeeds, and returns the record; `RepositoryProps.UpdateSendsKeys` and `RepositoryProps.UpdateKeyValue` state which names and values its key holds |
| Repository.DeleteItemOp | src/com/freebird/repository/DynamoCRUDRepository.java:97-106 | `deleteItem` leaves the record alone, sends a delete exactly when resolution succeeds, and returns 1; `RepositoryProps.DeleteSendsKeys` and `RepositoryProps.DeleteKeyValue` state which names and values its key holds |
| RepositoryProps.PopulateAllSpec | src/com/freebird/repository/DynamoCRUDRepository.java:68-74 | the query loop succeeds exactly when every item populates, and then returns their records in order; otherwise it throws the first failing item's exception |
| RepositoryProps.SaveSendsRecord | src/com/freebird/repository/DynamoCRUDRepository.java:78-82 | the put item holds exactly the names of the key fields and of the unignored fields; the caller's record holds every field's settled value |
| RepositoryProps.SaveWritesGeneratedKey | src/com/freebird/repository/DynamoCRUDRepository.java:77-84 | `saveItem` of a record whose key field is empty, with a strategy other than `NONE` and a type that can hold the key, returns the record with the generated, non-null key written into that field |
| RepositoryProps.SaveItemValue | src/com/freebird/repository/DynamoCRUDRepository.java:78-81 | in the put item, the last field written under a name supplies its value, encoded |
| RepositoryProps.UpdateSendsKeys | src/com/freebird/repository/DynamoCRUDRepository.java:88-91 | the update's key holds exactly the key fields' names, and its update map exactly the names of the updateable, unignored non-key fields |
| RepositoryProps.UpdateKeyValue | src/com/freebird/repository/DynamoCRUDRepository.java:88-91 | the key of a sent update holds, under each key field's attribute name that no later key field reuses, that field's own value from the record, encoded (UPDATE mode never generates a key) |
| RepositoryProps.UpdateItemValue | src/com/freebird/repository/DynamoCRUDRepository.java:88-91 | each update is a PUT of the last such field's value, encoded |
| RepositoryProps.DeleteSendsKeys | src/com/freebird/repository/DynamoCRUDRepository.java:99-102 | the delete's key holds exactly the key fields' names |
| RepositoryProps.DeleteKeyValue | src/com/freebird/repository/DynamoCRUDRepository.java:99-102 | the key of a sent delete holds, under each key field's attribute name that no later key field reuses, that field's own value from the record, encoded |
| RepositoryProps.GetItemSendsMeta | src/com/freebird/repository/DynamoCRUDRepository.java:37-44 | the `getItem` key is built from the metadata of a successful GET pass |
| RepositoryProps.GetItemHashKey | src/com/freebird/repository/DynamoCRUDRepository.java:39-40 | `getItem` asks under the last hash key field's name with that field's value, unless a range key of the same name overrides it |
| RepositoryProps.GetItemRangeKey | src/com/freebird/repository/DynamoCRUDRepository.java:41-42 | `getItem` asks under the last range key field's name with that field's value |
| RepositoryProps.GetItemNullKey | src/com/freebird/repository/DynamoCRUDRepository.java:40 | a class without a hash key field is still sent, with its key under the null name |
| RepositoryProps.GetItemResult | src/com/freebird/repository/DynamoCRUDRepository.java:46-49 | for a non-empty answer, `getItem` throws an InstantiationException when the class has no accessible no-argument constructor; otherwise it returns a record exactly when every field whose wire name the answer holds decodes to a value the field can hold; each such field holds its decoded value and every other field the value the constructor left in it |
| RepositoryProps.QuerySendsMeta | src/com/freebird/repository/DynamoCRUDRepository.java:57-65 | the query placeholders are the hash and range slots of the GET pass |
| RepositoryProps.QueryBindsHash | src/com/freebird/repository/DynamoCRUDRepository.java:60 | `:pk` is bound to the last hash key field's value, encoded |
| RepositoryProps.QueryBindsRange | src/com/freebird/repository/DynamoCRUDRepository.java:61 | `:typeRange` is bound to the last range key field's value, encoded |
| RepositoryProps.QueryUnbound | src/com/freebird/repository/DynamoCRUDRepository.java:60-61 | without a hash key field `:pk` is bound to null, and likewise `:typeRange` without a range key field |
| RepositoryProps.QueryResult | src/com/freebird/repository/DynamoCRUDRepository.java:67-74 | `queryByRangeKey` returns one populated fresh record per item found, in order, exactly when every item populates; otherwise it throws the first failing item's exception |
| Batch.BatchWritePer25Item | src/com/freebird/repository/DynamoCRUDRepository.java:139-161 | the calls are exactly the reference split of the write requests into consecutive chunks of 25 for the table (so, by `ChunksSpec`, every request is sent once, in order, in full calls with a shorter last one); there are ⌈n/25⌉ calls |
| Batch.BatchGetPer100Item | src/com/freebird/repository/DynamoCRUDRepository.java:108-137 | as written: the loop makes exactly the calls `AsWrittenGetCalls` describes, ⌈n/100⌉ of them, every one sending the whole key list; the result is the answers concatenated in call order |
| Batch.AsWrittenGetCalls | src/com/freebird/repository/DynamoCRUDRepository.java:114-134 | the calls of the as-written loop, ⌈n/100⌉ of them, each carrying the whole key list; `BatchGetPer100Item` states that the loop makes exactly these calls, and `AsWrittenGetOverflows` that for 101 keys they exceed the 100-key limit and ask for every key twice |
| Batch.AsWrittenGetOverflows | src/com/freebird/repository/DynamoCRUDRepository.java:114-134 | with 101 keys there are two calls; each sends 101 keys, over the 100-key limit, and together they ask for every key twice |
| Batch.BatchGetChunked | src/com/freebird/repository/DynamoCRUDRepository.java:108-137 | corrected: the calls are exactly the reference split of the keys into consecutive chunks of 100 for the table (so every key is asked for once, in order); there are ⌈n/100⌉ calls; the result is the answers concatenated in call order |
| Batch.ChunksSpec | src/com/freebird/repository/DynamoCRUDRepository.java:143-160 | the reference split into consecutive chunks sends everything once, in order, in chunked calls to the table |
| Batch.ChunkedUnique | src/com/freebird/repository/DynamoCRUDRepository.java:143-160 | any chunked sequence of calls that sends the same items to the same table is the reference split |

## Dead and unchecked paths in the code

Each point below is a fact about the code as written, and the model follows it.

- **Required range keys** (`DDBMapper.java:233-234`). The `NO Range Key` branch cannot be
  reached. `keyGen` already throws a NOKeyException for every empty key it does not generate,
  and a generated key is never null. For the same reason an empty optional range key is never
  silently left out (`ResolverProps.RangeRequiredIsDead`).
- **Mode check** (`DDBMapper.java:248-254`). An ordinary field in a mode other than the three
  defined ones throws `CRUD mode not correct.` only when it is *updateable*. A non-updateable
  field in such a mode is skipped without an exception.
- **Wrong-kind values** (`DDBMapper.java:117-177`, `75`). A wire value of the wrong kind, or an
  empty date string, decodes to null, and `populateEntity` stores that null in the field. For a
  primitive field `Field.set` then throws an IllegalArgumentException
  (`CodecProps.PopulateFieldsOk`).
- **`@DDBIgnore`** (`DDBMapper.java:236`, `66-77`). Only ordinary fields are checked for it in
  `extractEntityMeta`:
  - a key field marked `@DDBIgnore` is still written;
  - `populateEntity` reads ignored fields like any other.
- **Hash key fields** (`DDBMapper.java:210-219`, `DynamoCRUDRepository.java:40`). Nothing checks
  how many fields carry `@DDBHashKey`:
  - with none, `getItem` sends its key under the null name (`RepositoryProps.GetItemNullKey`);
  - with several, the last one wins (`ResolverProps.PrefixHashSlot`).
- **Batch get** (`DynamoCRUDRepository.java:119`, `130`). Every call sends the whole key list
  rather than the current box (see Findings).

## Left out

- The store (`DynamoDbClient`) is not modelled. Each operation returns the request it would
  send, and the store's replies to `getItem` and `query`, and to a batch get, are function
  parameters. Store exceptions, throttling and retries are out of scope.
- Batch.BatchGetPer100Item: a batch get's unprocessed keys and a missing `responses()` entry
  for the table (which would make `addAll` throw) are not modelled. The answer to a call is
  whatever the parameter returns.
- Reflection is replaced by the schema: a declared field's type and annotations are given as
  `Descriptors.Field` values, in whatever order `getDeclaredFields` returns them. Java does not
  fix that order; the lemmas hold for any order.
- A class's constructor is not run: its effect is the field values the class carries
  (`Descriptors.ClassDecl.init`). `InstantiationException` and `IllegalAccessException` share
  one error kind (`Results.Instantiation`), and an exception thrown by the constructor body
  itself is not modelled.
- JavaNumbers.ParseDecimal: only the ASCII digits `0`-`9` are accepted. Java's
  `Character.digit` also accepts other Unicode decimal digits, but DynamoDB's number values are
  ASCII text and never contain them.
- Codec.Encode: the Jackson `ObjectMapper` conversion of any other class is approximated by the
  map of the record's Java fields. Jackson's property naming, getter discovery and
  annotations are not modelled.
- The JDK text conversions of `Double`, `Float` and `Date` (the ISO-8601, `yyyyMM` and
  `yyyyMMdd` formatters) are parameters (`Codec.Formats`). Floating-point values are kept as
  bit patterns. CodecProps.ScalarRoundTrip assumes that these conversions round-trip, rather
  than proving it.
- The clock, `UUID.randomUUID()` and `Math.random()` are parameters (`KeyGen.Draw`, one per
  field). The model does not state that `Math.floor(Math.random() * n)` lies in `[0, n)`; it
  takes that as the type of the draw.
- KeyGenProps.RowIdLayout, KeyGenProps.RowIdMonotonic and KeyGenProps.RowIdInjective hold only
  for clocks within 2^48 ms of `CUSTOMEPOCH`, roughly ±8900 years. Beyond that, `RowId` models
  the 64-bit wrap-around, and only its low nine bits (the sequence draw) are proved.
- Codec.DecodeEntries: when several values of a map fail to decode, the model picks one of
  their exceptions without saying which, because `HashMap` iteration order decides it in Java.
- The SDK accessors `l()` and `m()` on a value of another kind return empty collections, as
  the SDK's auto-constructed lists and maps do. Only the five kinds the mapper produces are
  modelled (no binary or set kinds).
- `ArrayList` as a declared field type encodes as a list, but decoding it goes through
  `Class.forName` and `populateEntity` and fails with a DDBModelException. It is modelled
  that way, not corrected.
- Thread safety (`ThreadSafeDateFormatUtil`) and concurrency are not modelled.
- Checked exceptions are modelled by kind (`Results.Error`). Stack traces and exception
  chaining are not modelled.

## Findings

| source | as written | input that shows it | evidently intended | confidence | as-written member | corrected member |
|---|---|---|---|---|---|---|
| src/com/freebird/repository/DynamoCRUDRepository.java:119,130 | each batch-get call is built from `keyItem`, the whole key list, instead of `box`, the current chunk | 101 keys: two calls are made, each sending all 101 keys, over the 100-key limit, and every key is asked for twice | send `box`, so each key is asked for once, in calls of at most 100 keys | not executed | Batch.AsWrittenGetOverflows | Batch.BatchGetChunked |

=== FILE: batch.dfy ===
/**
 The batch helpers of `DynamoCRUDRepository`: `batchWritePer25Item` splits
 its write requests into calls of at most 25, and `batchGetPer100Item` is
 meant to split its keys into calls of at most 100. The store is not
 modelled; what it answers to a batch get is a parameter.
 */
module Batch {

  /** One batch call: the request items map, holding one list under the table name. */
  datatype BatchCall<T> = BatchCall(table: string, items: seq<T>)

  /** The store's limits on one call: 25 write requests, 100 keys to get. */
  const WRITE_LIMIT: nat := 25
  const GET_LIMIT: nat := 100

  /** Everything a sequence of calls sends, in order. */
  function Sent<T>(calls: seq<BatchCall<T>>): (r: seq<T>)
    ensures |calls| == 0 ==> r == []
  {
    if |calls| == 0 then [] else Sent(calls[..|calls| - 1]) + calls[|calls| - 1].items
  }

  /** Everything the store answers to a sequence of calls, in order. */
  function Answers<K, I>(calls: seq<BatchCall<K>>, answer: BatchCall<K> -> seq<I>): seq<I> {
    if |calls| == 0 then [] else Answers(calls[..|calls| - 1], answer) + answer(calls[|calls| - 1])
  }

  lemma SentSnoc<T>(calls: seq<BatchCall<T>>, c: BatchCall<T>)
    ensures Sent(calls + [c]) == Sent(calls) + c.items
  {
    assert (calls + [c])[..|calls|] == calls;
  }

  lemma AnswersSnoc<K, I>(calls: seq<BatchCall<K>>, c: BatchCall<K>, answer: BatchCall<K> -> seq<I>)
    ensures Answers(calls + [c], answer) == Answers(calls, answer) + answer(c)
  {
    assert (calls + [c])[..|calls|] == calls;
  }

  /** Calls of exactly `size` items each, except a last one that may be shorter but is never empty. */
  predicate Chunked<T>(calls: seq<BatchCall<T>>, size: nat) {
    && (forall j | 0 <= j < |calls| :: 0 < |calls[j].items| <= size)
    && (forall j | 0 <= j < |calls| - 1 :: |calls[j].items| == size)
  }

  /** The reference split: consecutive chunks of `size`, the remainder last. */
  function Chunks<T>(table: string, xs: seq<T>, size: nat): (r: seq<BatchCall<T>>)
    requires size > 0
    decreases |xs|
  {
    if |xs| == 0 then []
    else if |xs| <= size then [BatchCall(table, xs)]
    else [BatchCall(table, xs[..size])] + Chunks(table, xs[size..], size)
  }

  /** The reference split sends everything once, in order, in chunked calls to the table. */
  lemma {:induction false} ChunksSpec<T>(table: string, xs: seq<T>, size: nat)
    requires size > 0
    ensures var r := Chunks(table, xs, size);
      && Sent(r) == xs
      && Chunked(r, size)
      && forall j | 0 <= j < |r| :: r[j].table == table
    decreases |xs|
  {
    if |xs| > size {
      var rest := Chunks(table, xs[size..], size);
      ChunksSpec(table, xs[size..], size);
      SentCons(BatchCall(table, xs[..size]), rest);
      assert xs[..size] + xs[size..] == xs;
    } else if |xs| > 0 {
      assert Sent([BatchCall(table, xs)]) == Sent([]) + xs;
    }
  }

  lemma {:induction false} SentCons<T>(c: BatchCall<T>, calls: seq<BatchCall<T>>)
    ensures Sent([c] + calls) == c.items + Sent(calls)
    decreases |calls|
  {
    if |calls| == 0 {
      assert [c] + calls == [c];
      assert Sent([c]) == Sent([]) + c.items;
    } else {
      var init := calls[..|calls| - 1];
      var last := calls[|calls| - 1];
      SentCons(c, init);
      assert [c] + calls == ([c] + init) + [last];
      SentSnoc([c] + init, last);
      assert calls == init + [last];
      SentSnoc(init, last);
    }
  }

  /**
   `batchWritePer25Item(tableName, keyItem)`: fill a box one request at a
   time, send it when it holds 25, and send what is left at the end.
   */
  method BatchWritePer25Item<W>(table: string, items: seq<W>) returns (calls: seq<BatchCall<W>>)
    ensures calls == Chunks(table, items, WRITE_LIMIT)
    ensures |calls| == (|items| + WRITE_LIMIT - 1) / WRITE_LIMIT
  {
    calls := [];
    var box: seq<W> := [];
    var counter := 0;
    for i := 0 to |items|
      invariant counter == |box| < WRITE_LIMIT
      invariant Sent(calls) + box == items[..i]
      invariant forall j | 0 <= j < |calls| :: |calls[j].items| == WRITE_LIMIT && calls[j].table == table
      invariant |calls| * WRITE_LIMIT + |box| == i
    {
      box := box + [items[i]];
      counter := counter + 1;
      if counter == WRITE_LIMIT {
        SentSnoc(calls, BatchCall(table, box));
        calls := calls + [BatchCall(table, box)];
        box := [];
        counter := 0;
      }
    }
    if |box| > 0 {
      SentSnoc(calls, BatchCall(table, box));
      calls := calls + [BatchCall(table, box)];
    }
    assert items[..|items|] == items;
    ChunkedUnique(table, calls, items, WRITE_LIMIT);
  }

  /**
   `batchGetPer100Item(tableName, keyItem)` as written: it counts keys into
   a box of 100 like the write helper, but every call it makes sends the
   whole key list, not the box; the answers are concatenated in order.
   */
  method BatchGetPer100Item<K, I>(table: string, keys: seq<K>, answer: BatchCall<K> -> seq<I>)
    returns (calls: seq<BatchCall<K>>, items: seq<I>)
    ensures calls == AsWrittenGetCalls(table, keys)
    ensures |calls| == (|keys| + GET_LIMIT - 1) / GET_LIMIT
    ensures forall j | 0 <= j < |calls| :: calls[j] == BatchCall(table, keys)
    ensures items == Answers(calls, answer)
  {
    calls := [];
    items := [];
    var box: seq<K> := [];
    var counter := 0;
    for i := 0 to |keys|
      invariant counter == |box| < GET_LIMIT
      invariant forall j | 0 <= j < |calls| :: calls[j] == BatchCall(table, keys)
      invariant |calls| * GET_LIMIT + |box| == i
      invariant items == Answers(calls, answer)
    {
      box := box + [keys[i]];
      counter := counter + 1;
      if counter == GET_LIMIT {
        AnswersSnoc(calls, BatchCall(table, keys), answer);
        items := items + answer(BatchCall(table, keys));
        calls := calls + [BatchCall(table, keys)];
        box := [];
        counter := 0;
      }
    }
    if |box| > 0 {
      AnswersSnoc(calls, BatchCall(table, keys), answer);
      items := items + answer(BatchCall(table, keys));
      calls := calls + [BatchCall(table, keys)];
    }
  }

  /** The calls the as-written batch get makes: the whole key list, once per box of 100. */
  function AsWrittenGetCalls<K>(table: string, keys: seq<K>): (r: seq<BatchCall<K>>)
    ensures |r| == (|keys| + GET_LIMIT - 1) / GET_LIMIT
    ensures forall j | 0 <= j < |r| :: r[j] == BatchCall(table, keys)
  {
    seq((|keys| + GET_LIMIT - 1) / GET_LIMIT, _ => BatchCall(table, keys))
  }

  /**
   With 101 keys the as-written batch get makes two calls, each sending all
   101 keys: both exceed the 100-key limit, and together they ask for every
   key twice.
   */
  lemma AsWrittenGetOverflows<K>(table: string, keys: seq<K>)
    requires |keys| == 101
    ensures var calls := AsWrittenGetCalls(table, keys);
      && |calls| == 2
      && (forall j | 0 <= j < |calls| :: |calls[j].items| == 101 > GET_LIMIT)
      && Sent(calls) == keys + keys
  {
    var calls := AsWrittenGetCalls(table, keys);
    assert calls == [BatchCall(table, keys)] + [BatchCall(table, keys)];
    SentSnoc([BatchCall(table, keys)], BatchCall(table, keys));
    assert Sent([BatchCall(table, keys)]) == Sent([]) + keys;
  }

  /**
   The evidently intended batch get: send the box, so that every key is
   asked for exactly once, in order, in calls of at most 100 keys.
   */
  method BatchGetChunked<K, I>(table: string, keys: seq<K>, answer: BatchCall<K> -> seq<I>)
    returns (calls: seq<BatchCall<K>>, items: seq<I>)
    ensures calls == Chunks(table, keys, GET_LIMIT)
    ensures |calls| == (|keys| + GET_LIMIT - 1) / GET_LIMIT
    ensures items == Answers(calls, answer)
  {
    calls := [];
    items := [];
    var box: seq<K> := [];
    var counter := 0;
    for i := 0 to |keys|
      invariant counter == |box| < GET_LIMIT
      invariant Sent(calls) + box == keys[..i]
      invariant forall j | 0 <= j < |calls| :: |calls[j].items| == GET_LIMIT && calls[j].table == table
      invariant |calls| * GET_LIMIT + |box| == i
      invariant items == Answers(calls, answer)
    {
      box := box + [keys[i]];
      counter := counter + 1;
      if counter == GET_LIMIT {
        SentSnoc(calls, BatchCall(table, box));
        AnswersSnoc(calls, BatchCall(table, box), answer);
        items := items + answer(BatchCall(table, box));
        calls := calls + [BatchCall(table, box)];
        box := [];
        counter := 0;
      }
    }
    if |box| > 0 {
      SentSnoc(calls, BatchCall(table, box));
      AnswersSnoc(calls, BatchCall(table, box), answer);
      items := items + answer(BatchCall(table, box));
      calls := calls + [BatchCall(table, box)];
    }
    assert keys[..|keys|] == keys;
    ChunkedUnique(table, calls, keys, GET_LIMIT);
  }

  /** A split into chunks is unique: two chunked splits that send the same items are the same calls. */
  lemma {:induction false} ChunkedUnique<T>(table: string, a: seq<BatchCall<T>>, xs: seq<T>, size: nat)
    requires size > 0 && Chunked(a, size) && Sent(a) == xs
    requires forall j | 0 <= j < |a| :: a[j].table == table
    ensures a == Chunks(table, xs, size)
    decreases |a|
  {
    if |a| > 0 {
      var rest := a[1..];
      assert a == [a[0]] + rest;
      SentCons(a[0], rest);
      if |rest| == 0 {
        assert Sent(rest) == [];
        assert xs == a[0].items;
        assert a == [BatchCall(table, xs)];
      } else {
        assert |a[0].items| == size;
        SentLength(rest);
        assert |xs| > size;
        assert xs[..size] == a[0].items;
        assert xs[size..] == Sent(rest);
        ChunkedUnique(table, rest, xs[size..], size);
      }
    }
  }

  lemma {:induction false} SentLength<T>(calls: seq<BatchCall<T>>)
    requires forall j | 0 <= j < |calls| :: 0 < |calls[j].items|
    ensures |calls| > 0 ==> |Sent(calls)| > 0
  {
    if |calls| > 0 {
      assert Sent(calls) == Sent(calls[..|calls| - 1]) + calls[|calls| - 1].items;
    }
  }
}

=== FILE: codec.dfy ===
/**
 The value codec of `DDBMapper`: `extractField` (encode), the mutually
 recursive `getAttributeValuePayload` / `populateEntity` (decode).
 */
module Codec {
  import opened Results
  import opened JavaNumbers
  import opened Wire
  import opened JavaValues
  import opened Descriptors

  /**
   The text conversions the mapper borrows from the JDK and its date
   formatter, passed in rather than modelled: the ISO-8601 formatter
   `yyyy-MM-dd'T'HH:mm:ss.SSS'Z'` and the `yyyyMM` / `yyyyMMdd` formatters,
   and `Double`/`Float` to and from text. A parser answers `None` where the
   JDK throws.
   */
  datatype Formats = Formats(
    formatDate: Int64 -> string,
    parseDate: string -> Option<Int64>,
    formatMonth: Int64 -> string,
    formatDay: Int64 -> string,
    showDouble: bv64 -> string,
    parseDouble: string -> Option<bv64>,
    showFloat: bv32 -> string,
    parseFloat: string -> Option<bv32>)

  const ANNOTATION_MISSING := "Entity no annotation present, like DDBTable or DDBDocument."

  predicate IsNumeric(v: Value) {
    v.IntV? || v.LongV? || v.DoubleV? || v.FloatV?
  }

  /** `v.toString()` of a boxed number. */
  function NumberText(fmt: Formats, v: Value): string
    requires IsNumeric(v)
  {
    match v
    case IntV(i) => ToDecimal(i)
    case LongV(l) => ToDecimal(l)
    case DoubleV(d) => fmt.showDouble(d)
    case FloatV(f) => fmt.showFloat(f)
  }

  /**
   `extractField(typeName, v)`: null encodes to no wire value; otherwise the
   declared type picks the wire kind, and the elements of a list and the
   values of a map are each encoded by their own runtime type, nulls dropped.
   Any other class goes through an object-to-map conversion and is encoded
   as the map of its fields.
   */
  function Encode(fmt: Formats, t: Type, v: Value): (r: Option<AV>)
    requires Conforms(v, t)
    ensures r.None? <==> v.Null?
    ensures r.Some? && (t.Int? || t.Long? || t.Double? || t.Float?) ==> r.value.N?
    ensures r.Some? && (t.Str? || t.Date?) ==> r.value.S?
    ensures r.Some? && t.Boolean? ==> r.value == Bool(v.b)
    ensures r.Some? && (t.List? || t.ArrayList?) ==> r.value.L? && |r.value.l| == |NonNull(v.items)|
    ensures r.Some? && (t.Map? || t.Class?) ==> r.value.M?
    decreases v, 2
  {
    if v.Null? then None
    else match t
      case Int(_) => Some(N(NumberText(fmt, v)))
      case Long(_) => Some(N(NumberText(fmt, v)))
      case Double(_) => Some(N(NumberText(fmt, v)))
      case Float(_) => Some(N(NumberText(fmt, v)))
      case Boolean(_) => Some(Bool(v.b))
      case List(_) => Some(L(EncodeItems(fmt, v, NonNull(v.items))))
      case ArrayList(_) => Some(L(EncodeItems(fmt, v, NonNull(v.items))))
      case Map(_) => Some(M(EncodeEntries(fmt, v, v.entries)))
      case Date => Some(S(fmt.formatDate(v.millis)))
      case Str => Some(S(v.s))
      case Class(_) => Some(M(EncodeEntries(fmt, v, v.fields)))
  }

  /** A list element or map value, encoded by its runtime class. */
  function EncodeElement(fmt: Formats, x: Value): (r: AV)
    requires !x.Null?
    decreases x, 3
  {
    Encode(fmt, RuntimeType(x), x).value
  }

  function EncodeItems(fmt: Formats, ghost parent: Value, xs: seq<Value>): (r: seq<AV>)
    requires forall x | x in xs :: x < parent && !x.Null?
    ensures |r| == |xs|
    decreases parent, 1
  {
    seq(|xs|, i requires 0 <= i < |xs| => EncodeElement(fmt, xs[i]))
  }

  function EncodeEntries(fmt: Formats, ghost parent: Value, m: map<string, Value>): (r: map<string, AV>)
    requires forall k | k in m :: m[k] < parent
    ensures r.Keys == NonNullEntries(m).Keys
    decreases parent, 1
  {
    map k | k in m && !m[k].Null? :: EncodeElement(fmt, m[k])
  }

  /**
   The element type a list or map decodes its members with: the field's
   declared type argument for a top-level field (a raw type fails the cast
   to `ParameterizedType`), String for anything nested.
   */
  function ElementType(arg: Option<Type>, top: bool): Result<Type> {
    if !top then Ok(Str)
    else if arg.None? then Err(ClassCast)
    else Ok(arg.value)
  }

  /** The name of the class a type erases to, as `getCanonicalName` gives it. */
  function ClassName(t: Type): string {
    match t
    case Int(p) => if p then "int" else "java.lang.Integer"
    case Long(p) => if p then "long" else "java.lang.Long"
    case Double(p) => if p then "double" else "java.lang.Double"
    case Float(p) => if p then "float" else "java.lang.Float"
    case Boolean(p) => if p then "boolean" else "java.lang.Boolean"
    case List(_) => "java.util.List"
    case ArrayList(_) => "java.util.ArrayList"
    case Map(_) => "java.util.Map"
    case Date => "java.util.Date"
    case Str => "java.lang.String"
    case Class(n) => n
  }

  /**
   `Type.getTypeName()`, the name `Class.forName` is handed for a type
   argument: the class name, followed for a parameterized type by its type
   arguments in angle brackets, separated by `", "`.
   */
  function TypeName(t: Type): (r: string)
    ensures ClassName(t) <= r
    ensures Parameterized(t) <==> |r| > |ClassName(t)|
    ensures Parameterized(t) ==> r[|ClassName(t)|] == '<' && r[|r| - 1] == '>'
  {
    match t
    case List(Some(a)) => "java.util.List<" + TypeName(a) + ">"
    case ArrayList(Some(a)) => "java.util.ArrayList<" + TypeName(a) + ">"
    case Map(Some(a)) => "java.util.Map<java.lang.String, " + TypeName(a) + ">"
    case _ => ClassName(t)
  }

  /**
   The scalar cases of `getAttributeValuePayload`: a number, string or
   boolean of the wrong kind decodes to null, as does an empty date string;
   text the parser rejects is an exception.
   */
  function DecodeScalar(fmt: Formats, t: Type, av: AV): (r: Result<Value>)
    requires t.Int? || t.Long? || t.Double? || t.Float? || t.Boolean? || t.Date? || t.Str?
    ensures r.Ok? ==> r.value.Null? || Conforms(r.value, t)
  {
    match t
    case Int(_) =>
      if av.N? then
        var p := ParseInt(av.n);
        if p.Ok? then Ok(IntV(p.value)) else Err(p.error)
      else Ok(Null)
    case Long(_) =>
      if av.N? then
        var p := ParseLong(av.n);
        if p.Ok? then Ok(LongV(p.value)) else Err(p.error)
      else Ok(Null)
    case Double(_) =>
      if av.N? then
        match fmt.parseDouble(av.n)
        case Some(d) => Ok(DoubleV(d))
        case None => Err(NumberFormat(av.n))
      else Ok(Null)
    case Float(_) =>
      if av.N? then
        match fmt.parseFloat(av.n)
        case Some(f) => Ok(FloatV(f))
        case None => Err(NumberFormat(av.n))
      else Ok(Null)
    case Boolean(_) =>
      if av.Bool? then Ok(BoolV(av.b)) else Ok(Null)
    case Date =>
      if av.S? && av.s != "" then
        match fmt.parseDate(av.s)
        case Some(ms) => Ok(DateV(ms))
        case None => Err(DateParse(av.s))
      else Ok(Null)
    case Str =>
      if av.S? then Ok(StrV(av.s)) else Ok(Null)
  }

  /**
   `getAttributeValuePayload(typeName, av, field)`: decode by the declared
   type of the destination. `top` says whether a field is at hand
   (`field != null`).
   */
  ghost function Decode(s: Schema, fmt: Formats, t: Type, av: AV, top: bool): (r: Result<Value>)
    ensures r.Ok? ==> r.value.Null? || Conforms(r.value, t)
    decreases av, 1, 0
  {
    match t
    case List(arg) =>
      var e :- ElementType(arg, top);
      var items :- DecodeItems(s, fmt, e, av, 0);
      Ok(ListV(items))
    case ArrayList(_) =>
      // no case of its own: Class.forName("java.util.ArrayList") is not an annotated entity
      Err(ModelError(ANNOTATION_MISSING))
    case Map(arg) =>
      var e :- ElementType(arg, top);
      var entries :- DecodeEntries(s, fmt, e, av);
      Ok(MapV(entries))
    case Class(name) =>
      if name !in s then Err(ClassNotFound(name))
      else
        var blank :- NewInstance(name, s[name]);
        if !Mappable(s[name]) || !DistinctNames(s[name].fields) then Err(ModelError(ANNOTATION_MISSING))
        else
          var vals :- PopulateFields(s, fmt, s[name].fields, blank, av);
          Ok(ObjV(name, vals))
    case _ => DecodeScalar(fmt, t, av)
  }

  /**
   A nested list element or map value: its type name comes from a type
   argument, and a parameterized one (`List<X>`) names no class.
   */
  ghost function DecodeElement(s: Schema, fmt: Formats, e: Type, item: AV): (r: Result<Value>)
    ensures r.Ok? ==> r.value.Null? || Conforms(r.value, e)
    decreases item, 1, 1
  {
    if Parameterized(e) then Err(ClassNotFound(TypeName(e)))
    else Decode(s, fmt, e, item, false)
  }

  /**
   The values of `av.m()`, each decoded as a member under its key; a
   member that fails fails the whole map.
   */
  ghost function DecodeEntries(s: Schema, fmt: Formats, e: Type, av: AV): (r: Result<map<string, Value>>)
    ensures r.Ok? ==> r.value.Keys == MapOf(av).Keys
    decreases av, 0, 0
  {
    var entries := MapOf(av);
    var results := map k | k in entries :: DecodeElement(s, fmt, e, entries[k]);
    if forall k | k in results :: results[k].Ok? then
      Ok(map k | k in results :: results[k].value)
    else
      var k :| k in results && results[k].Err?;
      Err(results[k].error)
  }

  /** The elements of `av.l()` from position `i` on, stopping at the first failure. */
  ghost function DecodeItems(s: Schema, fmt: Formats, e: Type, av: AV, i: nat): (r: Result<seq<Value>>)
    requires i <= |ListOf(av)|
    ensures r.Ok? ==> |r.value| == |ListOf(av)| - i
    decreases av, 0, |ListOf(av)| - i
  {
    var items := ListOf(av);
    if i == |items| then Ok([])
    else
      var x :- DecodeElement(s, fmt, e, items[i]);
      var rest :- DecodeItems(s, fmt, e, av, i + 1);
      Ok([x] + rest)
  }

  /**
   The loop of `populateEntity` over the declared fields, reading each from
   `av.m()` under its wire name. A field whose wire name is absent keeps its
   value; a decoded null cannot be stored in a primitive field.
   */
  ghost function PopulateFields(s: Schema, fmt: Formats, fields: seq<Field>, vals: map<string, Value>, av: AV)
    : (r: Result<map<string, Value>>)
    decreases av, 0, |fields|
  {
    if |fields| == 0 then Ok(vals)
    else
      var f := fields[0];
      var wire := MapOf(av);
      var key := WireName(f);
      if key !in wire then PopulateFields(s, fmt, fields[1..], vals, av)
      else
        var x :- Decode(s, fmt, f.ty, wire[key], true);
        // `x` is null or of the field's declared type, so only null into a primitive is refused
        if !Conforms(x, f.ty) then Err(IllegalArgument(f.name))
        else PopulateFields(s, fmt, fields[1..], vals[f.name := x], av)
  }

  /**
   `populateEntity(entity, returnValue)`: fill an instance of a class
   annotated `@DDBTable` or `@DDBDocument` from a wire map.
   */
  ghost function PopulateEntity(s: Schema, fmt: Formats, entity: Value, wire: WireMap): (r: Result<Value>)
    ensures !(entity.ObjV? && entity.cls in s && Mappable(s[entity.cls])) ==> r == Err(ModelError(ANNOTATION_MISSING))
    ensures r.Ok? ==> r.value.ObjV? && r.value.cls == entity.cls
  {
    if entity.ObjV? && entity.cls in s && Mappable(s[entity.cls]) then
      var vals :- PopulateFields(s, fmt, s[entity.cls].fields, entity.fields, M(wire));
      Ok(ObjV(entity.cls, vals))
    else Err(ModelError(ANNOTATION_MISSING))
  }
}

=== FILE: codec_props.dfy ===
/**
 Properties of the value codec: what each kind encodes to, the round trips
 through the wire form, how list and map members pick their types, and what
 `populateEntity` changes in an instance.
 */
module CodecProps {
  import opened Results
  import opened JavaNumbers
  import opened Wire
  import opened JavaValues
  import opened Descriptors
  import opened Codec

  /**
   A non-null scalar whose text form the decoder reads back exactly. For
   integers, booleans and strings this always holds; for floating point
   numbers and dates it is the formatter's own round trip.
   */
  predicate Lossless(fmt: Formats, v: Value) {
    match v
    case IntV(_) => true
    case LongV(_) => true
    case BoolV(_) => true
    case StrV(_) => true
    case DoubleV(d) => fmt.parseDouble(fmt.showDouble(d)) == Some(d)
    case FloatV(f) => fmt.parseFloat(fmt.showFloat(f)) == Some(f)
    case DateV(ms) => fmt.formatDate(ms) != "" && fmt.parseDate(fmt.formatDate(ms)) == Some(ms)
    case _ => false
  }

  /** The string a nested member decodes to: `av.s()`, null for any other kind. */
  function StringValue(av: AV): Value {
    if av.S? then StrV(av.s) else Null
  }

  /**
   The wire form depends only on the value and the kind of the declared
   type: `int` and `Integer`, `List` and `ArrayList`, and any type argument
   encode alike.
   */
  lemma EncodeByKind(fmt: Formats, t1: Type, t2: Type, v: Value)
    requires Conforms(v, t1) && Conforms(v, t2)
    ensures Encode(fmt, t1, v) == Encode(fmt, t2, v)
  {
  }

  /** Numbers encode to their `toString` text, booleans and strings to their own kind. */
  lemma EncodeScalars(fmt: Formats, t: Type, v: Value)
    requires Conforms(v, t)
    ensures v.IntV? ==> Encode(fmt, t, v) == Some(N(ToDecimal(v.i)))
    ensures v.LongV? ==> Encode(fmt, t, v) == Some(N(ToDecimal(v.l)))
    ensures v.DoubleV? ==> Encode(fmt, t, v) == Some(N(fmt.showDouble(v.d)))
    ensures v.FloatV? ==> Encode(fmt, t, v) == Some(N(fmt.showFloat(v.f)))
    ensures v.BoolV? ==> Encode(fmt, t, v) == Some(Bool(v.b))
    ensures v.StrV? ==> Encode(fmt, t, v) == Some(S(v.s))
    ensures v.DateV? ==> Encode(fmt, t, v) == Some(S(fmt.formatDate(v.millis)))
  {
  }

  /** Decoding what a scalar encodes to gives the scalar back, whether or not a field is at hand. */
  lemma ScalarRoundTrip(s: Schema, fmt: Formats, t: Type, v: Value, top: bool)
    requires Conforms(v, t) && Lossless(fmt, v)
    ensures Decode(s, fmt, t, Encode(fmt, t, v).value, top) == Ok(v)
  {
    match v
    case IntV(i) => IntRoundTrip(i);
    case LongV(l) => LongRoundTrip(l);
    case _ =>
  }

  /** A number field with no number on the wire, or a date field with no (or an empty) string, stays null. */
  lemma AbsentDecodesNull(s: Schema, fmt: Formats, t: Type, av: AV, top: bool)
    requires || ((t.Int? || t.Long? || t.Double? || t.Float?) && !av.N?)
             || (t.Date? && (!av.S? || av.s == ""))
             || (t.Str? && !av.S?)
             || (t.Boolean? && !av.Bool?)
    ensures Decode(s, fmt, t, av, top) == Ok(Null)
  {
  }

  /** A date string the formatter rejects is a parse failure, never a silent null. */
  lemma MalformedDateFails(s: Schema, fmt: Formats, text: string, top: bool)
    requires text != "" && fmt.parseDate(text).None?
    ensures Decode(s, fmt, Date, S(text), top) == Err(DateParse(text))
  {
  }

  /** Number text that `parseInt` rejects (garbage, or out of the 32-bit range) is a NumberFormatException. */
  lemma MalformedIntFails(s: Schema, fmt: Formats, p: bool, text: string, top: bool)
    requires ParseDecimal(text, -TWO_31, TWO_31).Err?
    ensures Decode(s, fmt, Int(p), N(text), top) == Err(NumberFormat(text))
  {
  }

  /** One step of the element loop: a decoded head followed by the decoded rest. */
  lemma DecodeItemsStep(s: Schema, fmt: Formats, e: Type, av: AV, i: nat, x: Value, rest: seq<Value>)
    requires i < |ListOf(av)|
    requires DecodeElement(s, fmt, e, ListOf(av)[i]) == Ok(x)
    requires DecodeItems(s, fmt, e, av, i + 1) == Ok(rest)
    ensures DecodeItems(s, fmt, e, av, i) == Ok([x] + rest)
  {
  }

  /** A scalar member encoded by its runtime class decodes back under any type it conforms to. */
  lemma ElementRoundTrip(s: Schema, fmt: Formats, e: Type, z: Value)
    requires !z.Null? && Conforms(z, e) && Lossless(fmt, z) && !Parameterized(e)
    ensures DecodeElement(s, fmt, e, EncodeElement(fmt, z)) == Ok(z)
  {
    EncodeByKind(fmt, RuntimeType(z), e, z);
    ScalarRoundTrip(s, fmt, e, z, false);
  }

  /** When every member from position `i` on decodes, the loop yields exactly their decodings, in order. */
  lemma {:induction false} DecodeItemsAll(s: Schema, fmt: Formats, e: Type, av: AV, i: nat)
    requires i <= |ListOf(av)|
    requires forall j | i <= j < |ListOf(av)| :: DecodeElement(s, fmt, e, ListOf(av)[j]).Ok?
    ensures DecodeItems(s, fmt, e, av, i).Ok?
    ensures forall j | 0 <= j < |ListOf(av)| - i ::
      DecodeItems(s, fmt, e, av, i).value[j] == DecodeElement(s, fmt, e, ListOf(av)[i + j]).value
    decreases |ListOf(av)| - i
  {
    if i < |ListOf(av)| {
      DecodeItemsAll(s, fmt, e, av, i + 1);
      var x := DecodeElement(s, fmt, e, ListOf(av)[i]).value;
      var rest := DecodeItems(s, fmt, e, av, i + 1).value;
      DecodeItemsStep(s, fmt, e, av, i, x, rest);
    }
  }

  /** A list decodes its members with the element type `ElementType` picks. */
  lemma DecodeListField(s: Schema, fmt: Formats, arg: Option<Type>, av: AV, top: bool)
    ensures var e := ElementType(arg, top);
      var d := if e.Ok? then DecodeItems(s, fmt, e.value, av, 0) else Err(e.error);
      Decode(s, fmt, List(arg), av, top) == if d.Ok? then Ok(ListV(d.value)) else Err(d.error)
  {
  }

  /** Each encoded member of a list of scalars decodes back to the member. */
  lemma ListMembersRoundTrip(s: Schema, fmt: Formats, e: Type, xs: seq<Value>)
    requires forall x | x in xs :: x.Null? || (Conforms(x, e) && Lossless(fmt, x))
    requires !Parameterized(e)
    ensures forall j | 0 <= j < |NonNull(xs)| ::
      DecodeElement(s, fmt, e, EncodeItems(fmt, ListV(xs), NonNull(xs))[j]) == Ok(NonNull(xs)[j])
  {
    var zs := NonNull(xs);
    var w := EncodeItems(fmt, ListV(xs), zs);
    forall j | 0 <= j < |w|
      ensures DecodeElement(s, fmt, e, w[j]) == Ok(zs[j])
    {
      assert zs[j] in zs;
      assert w[j] == EncodeElement(fmt, zs[j]);
      ElementRoundTrip(s, fmt, e, zs[j]);
    }
  }

  /** When member `j` of a wire list decodes to `zs[j]` for every `j`, the element loop yields `zs`. */
  lemma DecodeItemsAre(s: Schema, fmt: Formats, e: Type, w: seq<AV>, zs: seq<Value>)
    requires |w| == |zs|
    requires forall j | 0 <= j < |w| :: DecodeElement(s, fmt, e, w[j]) == Ok(zs[j])
    ensures DecodeItems(s, fmt, e, L(w), 0) == Ok(zs)
  {
    var av := L(w);
    assert ListOf(av) == w;
    DecodeItemsAll(s, fmt, e, av, 0);
    var d := DecodeItems(s, fmt, e, av, 0).value;
    forall j | 0 <= j < |d|
      ensures d[j] == zs[j]
    {
      assert ListOf(av)[0 + j] == w[j];
    }
    assert d == zs;
  }

  /**
   A list field of scalars comes back from the wire as the same list with
   its nulls dropped, order kept.
   */
  lemma ListRoundTrip(s: Schema, fmt: Formats, e: Type, xs: seq<Value>)
    requires forall x | x in xs :: x.Null? || (Conforms(x, e) && Lossless(fmt, x))
    requires !Parameterized(e)
    ensures Decode(s, fmt, List(Some(e)), Encode(fmt, List(Some(e)), ListV(xs)).value, true)
         == Ok(ListV(NonNull(xs)))
  {
    var zs := NonNull(xs);
    var w := EncodeItems(fmt, ListV(xs), zs);
    assert Encode(fmt, List(Some(e)), ListV(xs)).value == L(w);
    ListMembersRoundTrip(s, fmt, e, xs);
    DecodeItemsAre(s, fmt, e, w, zs);
    DecodeListField(s, fmt, Some(e), L(w), true);
  }

  /** When every member decodes, the map holds exactly the members' decodings under their keys. */
  lemma DecodeEntriesAll(s: Schema, fmt: Formats, e: Type, av: AV)
    requires forall k | k in MapOf(av) :: DecodeElement(s, fmt, e, MapOf(av)[k]).Ok?
    ensures DecodeEntries(s, fmt, e, av).Ok?
    ensures forall k | k in MapOf(av) ::
      DecodeEntries(s, fmt, e, av).value[k] == DecodeElement(s, fmt, e, MapOf(av)[k]).value
  {
  }

  /** A top-level map field with a type argument decodes its members with that argument. */
  lemma DecodeMapField(s: Schema, fmt: Formats, e: Type, av: AV)
    ensures var d := DecodeEntries(s, fmt, e, av);
      Decode(s, fmt, Map(Some(e)), av, true) == if d.Ok? then Ok(MapV(d.value)) else Err(d.error)
  {
  }

  /** Each encoded member of a map of scalars decodes back to the member. */
  lemma MapMembersRoundTrip(s: Schema, fmt: Formats, e: Type, m: map<string, Value>)
    requires forall k | k in m :: m[k].Null? || (Conforms(m[k], e) && Lossless(fmt, m[k]))
    requires !Parameterized(e)
    ensures var w := EncodeEntries(fmt, MapV(m), m);
      forall k | k in w :: DecodeElement(s, fmt, e, w[k]) == Ok(m[k])
  {
    var w := EncodeEntries(fmt, MapV(m), m);
    forall k | k in w
      ensures DecodeElement(s, fmt, e, w[k]) == Ok(m[k])
    {
      assert w[k] == EncodeElement(fmt, m[k]);
      ElementRoundTrip(s, fmt, e, m[k]);
    }
  }

  /**
   A map field of scalars comes back from the wire as the same map without
   its null-valued entries.
   */
  lemma MapRoundTrip(s: Schema, fmt: Formats, e: Type, m: map<string, Value>)
    requires forall k | k in m :: m[k].Null? || (Conforms(m[k], e) && Lossless(fmt, m[k]))
    requires !Parameterized(e)
    ensures Decode(s, fmt, Map(Some(e)), Encode(fmt, Map(Some(e)), MapV(m)).value, true)
         == Ok(MapV(NonNullEntries(m)))
  {
    var w := EncodeEntries(fmt, MapV(m), m);
    var av := M(w);
    assert Encode(fmt, Map(Some(e)), MapV(m)).value == av;
    MapMembersRoundTrip(s, fmt, e, m);
    DecodeEntriesAll(s, fmt, e, av);
    var d := DecodeEntries(s, fmt, e, av).value;
    assert d == NonNullEntries(m);
    DecodeMapField(s, fmt, e, av);
  }

  /** Encoding a list keeps exactly its non-null elements, in order, each encoded by its runtime class. */
  lemma EncodeListMembers(fmt: Formats, t: Type, xs: seq<Value>)
    requires t.List? || t.ArrayList?
    ensures var w := Encode(fmt, t, ListV(xs)).value;
      && w.L? && |w.l| == |NonNull(xs)|
      && (forall i | 0 <= i < |w.l| :: w.l[i] == Encode(fmt, RuntimeType(NonNull(xs)[i]), NonNull(xs)[i]).value)
      && ((forall x | x in xs :: !x.Null?) ==> |w.l| == |xs|)
  {
    NonNullKeepsAll(xs);
    assert Encode(fmt, t, ListV(xs)).value == L(EncodeItems(fmt, ListV(xs), NonNull(xs)));
  }

  lemma {:induction false} NonNullKeepsAll(xs: seq<Value>)
    ensures (forall x | x in xs :: !x.Null?) ==> NonNull(xs) == xs
  {
    if |xs| > 0 {
      NonNullKeepsAll(xs[1..]);
      assert [xs[0]] + xs[1..] == xs;
    }
  }

  /** Encoding a map keeps exactly the keys with non-null values, each value encoded by its runtime class. */
  lemma EncodeMapMembers(fmt: Formats, m: map<string, Value>, arg: Option<Type>)
    ensures var w := Encode(fmt, Map(arg), MapV(m)).value;
      && w.M?
      && (forall k :: k in w.m <==> k in m && !m[k].Null?)
      && (forall k | k in w.m :: w.m[k] == Encode(fmt, RuntimeType(m[k]), m[k]).value)
  {
    assert Encode(fmt, Map(arg), MapV(m)).value == M(EncodeEntries(fmt, MapV(m), m));
  }

  /** A member decoded without a field at hand as a string. */
  lemma StringMember(s: Schema, fmt: Formats, item: AV)
    ensures DecodeElement(s, fmt, Str, item) == Ok(StringValue(item))
  {
  }

  /**
   Without a field at hand (a list nested in another), list members are
   decoded as strings whatever the wire holds: anything but a string becomes null.
   */
  lemma NestedListHoldsStrings(s: Schema, fmt: Formats, arg: Option<Type>, av: AV)
    ensures var r := Decode(s, fmt, List(arg), av, false);
      && r.Ok? && r.value.ListV? && |r.value.items| == |ListOf(av)|
      && forall j | 0 <= j < |ListOf(av)| :: r.value.items[j] == StringValue(ListOf(av)[j])
  {
    forall j | 0 <= j < |ListOf(av)|
      ensures DecodeElement(s, fmt, Str, ListOf(av)[j]) == Ok(StringValue(ListOf(av)[j]))
    {
      StringMember(s, fmt, ListOf(av)[j]);
    }
    DecodeItemsAll(s, fmt, Str, av, 0);
    var d := DecodeItems(s, fmt, Str, av, 0).value;
    assert forall j | 0 <= j < |ListOf(av)| :: d[j] == StringValue(ListOf(av)[j]);
    assert ElementType(arg, false) == Ok(Str);
    DecodeListField(s, fmt, arg, av, false);
    assert Decode(s, fmt, List(arg), av, false) == Ok(ListV(d));
  }

  /**
   Without a field at hand (a map nested in another), map values are
   decoded as strings whatever the wire holds: anything but a string becomes null.
   */
  lemma NestedMapHoldsStrings(s: Schema, fmt: Formats, arg: Option<Type>, av: AV)
    ensures var r := Decode(s, fmt, Map(arg), av, false);
      && r.Ok? && r.value.MapV? && r.value.entries.Keys == MapOf(av).Keys
      && forall k | k in MapOf(av) :: r.value.entries[k] == StringValue(MapOf(av)[k])
  {
    forall k | k in MapOf(av)
      ensures DecodeElement(s, fmt, Str, MapOf(av)[k]) == Ok(StringValue(MapOf(av)[k]))
    {
      StringMember(s, fmt, MapOf(av)[k]);
    }
    DecodeEntriesAll(s, fmt, Str, av);
    assert ElementType(arg, false) == Ok(Str);
    assert Decode(s, fmt, Map(arg), av, false) == Ok(MapV(DecodeEntries(s, fmt, Str, av).value));
  }

  /**
   A top-level list field decodes each element with the field's declared
   type argument; a raw `List` field fails the generic-type cast.
   */
  lemma TopListUsesTypeArgument(s: Schema, fmt: Formats, arg: Option<Type>, av: AV)
    requires arg.Some? ==> !Parameterized(arg.value)
    requires arg.Some? ==> forall j | 0 <= j < |ListOf(av)| :: Decode(s, fmt, arg.value, ListOf(av)[j], false).Ok?
    ensures arg.None? ==> Decode(s, fmt, List(arg), av, true) == Err(ClassCast)
    ensures arg.Some? ==>
      var r := Decode(s, fmt, List(arg), av, true);
      && r.Ok? && r.value.ListV? && |r.value.items| == |ListOf(av)|
      && forall j | 0 <= j < |ListOf(av)| :: r.value.items[j] == Decode(s, fmt, arg.value, ListOf(av)[j], false).value
  {
    if arg.Some? {
      DecodeItemsAll(s, fmt, arg.value, av, 0);
    }
  }

  /**
   A list field whose type argument is itself generic (`List<List<X>>`) can
   only decode an empty list: the first element names no loadable class.
   */
  lemma ParameterizedArgumentFails(s: Schema, fmt: Formats, e: Type, av: AV)
    requires Parameterized(e)
    ensures |ListOf(av)| == 0 ==> Decode(s, fmt, List(Some(e)), av, true) == Ok(ListV([]))
    ensures |ListOf(av)| > 0 ==> Decode(s, fmt, List(Some(e)), av, true) == Err(ClassNotFound(TypeName(e)))
  {
    if |ListOf(av)| > 0 {
      assert DecodeElement(s, fmt, e, ListOf(av)[0]) == Err(ClassNotFound(TypeName(e)));
      assert DecodeItems(s, fmt, e, av, 0) == Err(ClassNotFound(TypeName(e)));
    }
  }

  /** The fields whose wire name the map holds: the ones `populateEntity` assigns. */
  predicate Present(fields: seq<Field>, wire: WireMap, i: int)
    requires 0 <= i < |fields|
  {
    WireName(fields[i]) in wire
  }

  /** Field `i` is present and its wire value decodes to something its field can hold. */
  ghost predicate Storable(s: Schema, fmt: Formats, fields: seq<Field>, wire: WireMap, i: int)
    requires 0 <= i < |fields|
  {
    Present(fields, wire, i) ==>
      var d := Decode(s, fmt, fields[i].ty, wire[WireName(fields[i])], true);
      d.Ok? && Conforms(d.value, fields[i].ty)
  }

  /** The field loop succeeds exactly when every present field's wire value decodes to something it can hold. */
  lemma {:induction false} PopulateFieldsOk(s: Schema, fmt: Formats, fields: seq<Field>, vals: map<string, Value>, wire: WireMap)
    ensures PopulateFields(s, fmt, fields, vals, M(wire)).Ok? <==> forall i | 0 <= i < |fields| :: Storable(s, fmt, fields, wire, i)
    decreases |fields|
  {
    if |fields| > 0 {
      var f := fields[0];
      var rest := fields[1..];
      var key := WireName(f);
      assert forall j | 0 <= j < |rest| :: Storable(s, fmt, rest, wire, j) == Storable(s, fmt, fields, wire, j + 1);
      if key !in wire {
        PopulateFieldsOk(s, fmt, rest, vals, wire);
        assert PopulateFields(s, fmt, fields, vals, M(wire)) == PopulateFields(s, fmt, rest, vals, M(wire));
        assert Storable(s, fmt, fields, wire, 0);
      } else {
        var d := Decode(s, fmt, f.ty, wire[key], true);
        if d.Ok? && Conforms(d.value, f.ty) {
          PopulateFieldsOk(s, fmt, rest, vals[f.name := d.value], wire);
          assert PopulateFields(s, fmt, fields, vals, M(wire)) == PopulateFields(s, fmt, rest, vals[f.name := d.value], M(wire));
          assert Storable(s, fmt, fields, wire, 0);
        } else {
          assert !Storable(s, fmt, fields, wire, 0);
        }
      }
      assert forall i | 1 <= i < |fields| :: Storable(s, fmt, fields, wire, i) == Storable(s, fmt, rest, wire, i - 1);
    }
  }

  /** A successful field loop stores each present field's decoded value under its name. */
  lemma {:induction false} PopulateFieldsAssigns(s: Schema, fmt: Formats, fields: seq<Field>, vals: map<string, Value>, wire: WireMap)
    requires DistinctNames(fields)
    ensures var r := PopulateFields(s, fmt, fields, vals, M(wire));
      r.Ok? ==> forall i | 0 <= i < |fields| && Present(fields, wire, i) ::
        var d := Decode(s, fmt, fields[i].ty, wire[WireName(fields[i])], true);
        d.Ok? && fields[i].name in r.value && r.value[fields[i].name] == d.value
    decreases |fields|
  {
    var r := PopulateFields(s, fmt, fields, vals, M(wire));
    if |fields| > 0 && r.Ok? {
      var f := fields[0];
      var rest := fields[1..];
      assert forall i | 0 <= i < |rest| :: rest[i] == fields[i + 1];
      var key := WireName(f);
      var vals' := if key in wire then vals[f.name := Decode(s, fmt, f.ty, wire[key], true).value] else vals;
      assert r == PopulateFields(s, fmt, rest, vals', M(wire));
      PopulateFieldsAssigns(s, fmt, rest, vals', wire);
      forall i | 0 <= i < |fields| && Present(fields, wire, i)
        ensures var d := Decode(s, fmt, fields[i].ty, wire[WireName(fields[i])], true);
          d.Ok? && fields[i].name in r.value && r.value[fields[i].name] == d.value
      {
        if i == 0 {
          var d := Decode(s, fmt, f.ty, wire[key], true);
          assert d.Ok? && vals' == vals[f.name := d.value];
          assert forall j | 0 <= j < |rest| && Present(rest, wire, j) :: rest[j].name != f.name;
          PopulateFieldsKeeps(s, fmt, rest, vals', wire, f.name);
        } else {
          assert Present(rest, wire, i - 1);
        }
      }
    }
  }

  /** A successful field loop keeps the value of a name that no present field carries. */
  lemma {:induction false} PopulateFieldsKeeps(s: Schema, fmt: Formats, fields: seq<Field>, vals: map<string, Value>, wire: WireMap, k: string)
    requires k in vals
    requires forall i | 0 <= i < |fields| && Present(fields, wire, i) :: fields[i].name != k
    ensures var r := PopulateFields(s, fmt, fields, vals, M(wire));
      r.Ok? ==> k in r.value && r.value[k] == vals[k]
    decreases |fields|
  {
    var r := PopulateFields(s, fmt, fields, vals, M(wire));
    if |fields| > 0 && r.Ok? {
      var f := fields[0];
      var rest := fields[1..];
      var key := WireName(f);
      assert forall i | 0 <= i < |rest| && Present(rest, wire, i) :: Present(fields, wire, i + 1) && rest[i].name != k;
      if key !in wire {
        PopulateFieldsKeeps(s, fmt, rest, vals, wire, k);
        assert r == PopulateFields(s, fmt, rest, vals, M(wire));
      } else {
        assert Present(fields, wire, 0);
        var vals' := vals[f.name := Decode(s, fmt, f.ty, wire[key], true).value];
        PopulateFieldsKeeps(s, fmt, rest, vals', wire, k);
        assert r == PopulateFields(s, fmt, rest, vals', M(wire));
      }
    }
  }

  /** A successful field loop adds no name that is neither already there nor a declared field. */
  lemma {:induction false} PopulateFieldsNames(s: Schema, fmt: Formats, fields: seq<Field>, vals: map<string, Value>, wire: WireMap)
    ensures var r := PopulateFields(s, fmt, fields, vals, M(wire));
      r.Ok? ==> forall k | k in r.value :: k in vals || exists i | 0 <= i < |fields| :: fields[i].name == k
    decreases |fields|
  {
    var r := PopulateFields(s, fmt, fields, vals, M(wire));
    if |fields| > 0 && r.Ok? {
      var f := fields[0];
      var rest := fields[1..];
      var key := WireName(f);
      var vals' := if key in wire then vals[f.name := Decode(s, fmt, f.ty, wire[key], true).value] else vals;
      assert r == PopulateFields(s, fmt, rest, vals', M(wire));
      PopulateFieldsNames(s, fmt, rest, vals', wire);
      forall k | k in r.value
        ensures k in vals || exists i | 0 <= i < |fields| :: fields[i].name == k
      {
        if k !in vals && k != f.name {
          assert k !in vals';
          var i :| 0 <= i < |rest| && rest[i].name == k;
          assert fields[i + 1].name == k;
        } else if k !in vals {
          assert fields[0].name == k;
        }
      }
    }
  }

  /**
   `populateEntity` assigns exactly the fields whose wire name is in the map,
   each to the decoded wire value, and leaves every other field as it was;
   it fails when a present value does not decode or cannot be stored, and
   on a class annotated neither `@DDBTable` nor `@DDBDocument`.
   */
  lemma PopulateEntitySpec(s: Schema, fmt: Formats, c: string, vals: map<string, Value>, wire: WireMap)
    requires c in s && DistinctNames(s[c].fields)
    ensures var fields := s[c].fields;
      var r := PopulateEntity(s, fmt, ObjV(c, vals), wire);
      && (!Mappable(s[c]) ==> r == Err(ModelError(ANNOTATION_MISSING)))
      && (Mappable(s[c]) ==> (r.Ok? <==> forall i | 0 <= i < |fields| :: Storable(s, fmt, fields, wire, i)))
      && (r.Ok? ==> r.value.ObjV? && r.value.cls == c)
      && (r.Ok? ==> forall i | 0 <= i < |fields| && Present(fields, wire, i) ::
            var d := Decode(s, fmt, fields[i].ty, wire[WireName(fields[i])], true);
            d.Ok? && fields[i].name in r.value.fields && r.value.fields[fields[i].name] == d.value)
      && (r.Ok? ==> forall k | k in vals && (forall i | 0 <= i < |fields| && Present(fields, wire, i) :: fields[i].name != k) ::
            k in r.value.fields && r.value.fields[k] == vals[k])
  {
    PopulateFieldsOk(s, fmt, s[c].fields, vals, wire);
    PopulateFieldsAssigns(s, fmt, s[c].fields, vals, wire);
    forall k | k in vals && (forall i | 0 <= i < |s[c].fields| && Present(s[c].fields, wire, i) :: s[c].fields[i].name != k) {
      PopulateFieldsKeeps(s, fmt, s[c].fields, vals, wire, k);
    }
  }

  /** Populating a well-typed instance leaves it well typed: every stored value suits its field. */
  lemma PopulateKeepsTyped(s: Schema, fmt: Formats, c: string, vals: map<string, Value>, wire: WireMap)
    requires c in s && DistinctNames(s[c].fields) && Typed(s[c].fields, vals)
    ensures var r := PopulateEntity(s, fmt, ObjV(c, vals), wire);
      r.Ok? ==> InstanceOf(s, r.value, c)
  {
    var fields := s[c].fields;
    PopulateFieldsOk(s, fmt, fields, vals, wire);
    PopulateFieldsAssigns(s, fmt, fields, vals, wire);
    var r := PopulateEntity(s, fmt, ObjV(c, vals), wire);
    if r.Ok? {
      forall i | 0 <= i < |fields|
        ensures fields[i].name in r.value.fields && Conforms(r.value.fields[fields[i].name], fields[i].ty)
      {
        if Present(fields, wire, i) {
          assert Storable(s, fmt, fields, wire, i);
        } else {
          forall j | 0 <= j < |fields| && Present(fields, wire, j)
            ensures fields[j].name != fields[i].name
          {
            if j != i {
              assert i < j || j < i;
            }
          }
          PopulateFieldsKeeps(s, fmt, fields, vals, wire, fields[i].name);
        }
      }
    }
  }
}

=== FILE: descriptors.dfy ===
/**
 The field descriptors that replace reflection over the mapper's annotations:
 `@DDBTable`, `@DDBDocument`, `@DDBHashKey`, `@DDBRangeKey`, `@DDBAttr` and
 `@DDBIgnore`, collected once per record class in the order reflection
 returns the declared fields.
 */
module Descriptors {
  import opened Results
  import opened JavaValues

  /** `DDBHashKey.KEY_GEN`; the annotations' default is `GenNone`. */
  datatype Gen = GenNone | GenUuid | GenMonth | GenDay | GenNum | GenNumStr

  datatype HashKey = HashKey(name: string, gen: Gen)
  datatype RangeKey = RangeKey(name: string, gen: Gen, prefix: string, required: bool)
  datatype Attr = Attr(name: string, updateable: bool)

  /**
   One declared field: its Java name, declared type and whichever of the
   field annotations it carries (a field may carry several).
   */
  datatype Field = Field(
    name: string,
    ty: Type,
    attr: Option<Attr>,
    hashKey: Option<HashKey>,
    rangeKey: Option<RangeKey>,
    ignored: bool)

  /**
   A record class: `@DDBTable(name)`, `@DDBDocument`, its declared fields in
   order, and the field values its no-argument constructor leaves (field
   initialisers and constructor body included); `init` is `None` when the
   class has no accessible no-argument constructor.
   */
  datatype ClassDecl = ClassDecl(
    table: Option<string>,
    document: bool,
    fields: seq<Field>,
    init: Option<map<string, Value>>)

  /** The schema table: class name to declaration. */
  type Schema = map<string, ClassDecl>

  /** `populateEntity` accepts classes annotated `@DDBTable` or `@DDBDocument`. */
  predicate Mappable(d: ClassDecl) {
    d.table.Some? || d.document
  }

  /**
   `getByDDBAnnotationPresent`: the wire name a field is read from, taken from
   `@DDBAttr`, else `@DDBHashKey`, else `@DDBRangeKey`, else the Java name.
   */
  function WireName(f: Field): string {
    if f.attr.Some? then f.attr.value.name
    else if f.hashKey.Some? then f.hashKey.value.name
    else if f.rangeKey.Some? then f.rangeKey.value.name
    else f.name
  }

  /** Java guarantees that the fields a class declares have distinct names. */
  predicate DistinctNames(fields: seq<Field>) {
    forall i, j | 0 <= i < j < |fields| :: fields[i].name != fields[j].name
  }

  /**
   What Java guarantees of a class: its fields have distinct names, and a
   constructed instance holds a value of its type in every field.
   */
  predicate ClassWellFormed(d: ClassDecl) {
    DistinctNames(d.fields) && (d.init.Some? ==> Typed(d.fields, d.init.value))
  }

  predicate JavaWellFormed(s: Schema) {
    forall c | c in s :: ClassWellFormed(s[c])
  }

  /** Every declared field is present and holds a value its type admits. */
  predicate Typed(fields: seq<Field>, vals: map<string, Value>) {
    forall i | 0 <= i < |fields| :: fields[i].name in vals && Conforms(vals[fields[i].name], fields[i].ty)
  }

  /**
   `Class.newInstance()` on class `c`: the field values the constructor
   leaves, or the InstantiationException / IllegalAccessException of a class
   without an accessible no-argument constructor.
   */
  function NewInstance(c: string, d: ClassDecl): Result<map<string, Value>> {
    if d.init.Some? then Ok(d.init.value) else Err(Instantiation(c))
  }

  /** `v` is an instance of schema class `c` whose fields all conform to their types. */
  predicate InstanceOf(s: Schema, v: Value, c: string) {
    v.ObjV? && v.cls == c && c in s && Typed(s[c].fields, v.fields)
  }
}

=== FILE: java_numbers.dfy ===
/**
 Java's fixed-width integers and their decimal text form: `Integer.toString`,
 `Long.toString`, `Integer.parseInt`, `Long.parseLong` and two's-complement
 wrap-around of `long` arithmetic.
 */
module JavaNumbers {
  import opened Results

  const TWO_31: int := 0x8000_0000
  const TWO_63: int := 0x8000_0000_0000_0000
  const TWO_64: int := 0x1_0000_0000_0000_0000

  type Int32 = x: int | -TWO_31 <= x < TWO_31
  type Int64 = x: int | -TWO_63 <= x < TWO_63

  /** Two's-complement wrap-around of a mathematical integer into a Java `long`. */
  function Wrap64(x: int): (r: Int64)
    ensures (r - x) % TWO_64 == 0
    ensures -TWO_63 <= x < TWO_63 ==> r == x
  {
    (x + TWO_63) % TWO_64 - TWO_63
  }

  predicate IsDigit(c: char) {
    '0' <= c <= '9'
  }

  function DigitChar(d: nat): (c: char)
    requires d < 10
    ensures IsDigit(c)
  {
    ['0', '1', '2', '3', '4', '5', '6', '7', '8', '9'][d]
  }

  function DigitValue(c: char): (d: nat)
    requires IsDigit(c)
    ensures d < 10
  {
    (c as int) - ('0' as int)
  }

  /** Decimal digits of a natural number, most significant first, no leading zeros. */
  function Digits(n: nat): (s: string)
    ensures |s| > 0
    ensures forall i | 0 <= i < |s| :: IsDigit(s[i])
    decreases n
  {
    if n < 10 then [DigitChar(n)] else Digits(n / 10) + [DigitChar(n % 10)]
  }

  /** The value of a string of decimal digits (leading zeros allowed). */
  function DigitsValue(s: string): nat
    requires forall i | 0 <= i < |s| :: IsDigit(s[i])
  {
    if |s| == 0 then 0
    else 10 * DigitsValue(s[..|s| - 1]) + DigitValue(s[|s| - 1])
  }

  /** `Integer.toString` / `Long.toString`: a minus sign for negatives, then the digits. */
  function ToDecimal(x: int): (s: string)
    ensures |s| > 0
    ensures s[0] == '-' <==> x < 0
  {
    if x < 0 then "-" + Digits(-x) else Digits(x)
  }

  /**
   `Integer.parseInt(s, 10)` / `Long.parseLong(s, 10)` over the range [lo, hi):
   an optional leading '-' or '+', then at least one decimal digit; a value
   outside the range is a NumberFormatException like any malformed text.
   */
  function ParseDecimal(s: string, lo: int, hi: int): (r: Result<int>)
    ensures r.Ok? ==> lo <= r.value < hi
    ensures r.Err? ==> r.error == NumberFormat(s)
  {
    if |s| == 0 then Err(NumberFormat(s))
    else
      var negative := s[0] == '-';
      var body := if s[0] == '-' || s[0] == '+' then s[1..] else s;
      if |body| == 0 || !(forall i | 0 <= i < |body| :: IsDigit(body[i])) then Err(NumberFormat(s))
      else
        var magnitude: int := DigitsValue(body);
        var v := if negative then -magnitude else magnitude;
        if lo <= v < hi then Ok(v) else Err(NumberFormat(s))
  }

  /** `Integer.parseInt(s)`: decimal text that fits 32 bits. */
  function ParseInt(s: string): (r: Result<Int32>)
    ensures r.Err? ==> r.error == NumberFormat(s)
  {
    var p := ParseDecimal(s, -TWO_31, TWO_31);
    if p.Ok? then Ok(p.value) else Err(p.error)
  }

  /** `Long.parseLong(s)`: decimal text that fits 64 bits. */
  function ParseLong(s: string): (r: Result<Int64>)
    ensures r.Err? ==> r.error == NumberFormat(s)
  {
    var p := ParseDecimal(s, -TWO_63, TWO_63);
    if p.Ok? then Ok(p.value) else Err(p.error)
  }

  lemma {:induction false} DigitsValueOfDigits(n: nat)
    ensures DigitsValue(Digits(n)) == n
    decreases n
  {
    var s := Digits(n);
    if n >= 10 {
      DigitsValueOfDigits(n / 10);
      assert s[..|s| - 1] == Digits(n / 10);
    }
  }

  /**
   Decimal digits, after a minus sign when `negative`, parse to their signed
   value when the range holds it, and are a NumberFormatException otherwise.
   */
  lemma ParseDigits(negative: bool, body: string, lo: int, hi: int)
    requires |body| > 0 && forall i | 0 <= i < |body| :: IsDigit(body[i])
    ensures var v := if negative then -(DigitsValue(body) as int) else DigitsValue(body);
      var s := (if negative then "-" else "") + body;
      ParseDecimal(s, lo, hi) == if lo <= v < hi then Ok(v) else Err(NumberFormat(s))
  {
    var s := (if negative then "-" else "") + body;
    assert |s| > 0 && (s[0] == '-') == negative by {
      assert IsDigit(body[0]);
      if negative { assert s[0] == '-'; } else { assert s[0] == body[0]; }
    }
    var rest := if s[0] == '-' || s[0] == '+' then s[1..] else s;
    assert rest == body by {
      if negative { assert s[1..] == body; } else { assert IsDigit(body[0]); }
    }
  }

  /**
   Parsing the text `ToDecimal` prints gives back the number under any range
   that holds it, and is a NumberFormatException under any other.
   */
  lemma ParseToDecimal(x: int, lo: int, hi: int)
    ensures ParseDecimal(ToDecimal(x), lo, hi) == if lo <= x < hi then Ok(x) else Err(NumberFormat(ToDecimal(x)))
  {
    var n: nat := if x < 0 then -x else x;
    var body := Digits(n);
    DigitsValueOfDigits(n);
    ParseDigits(x < 0, body, lo, hi);
    assert ToDecimal(x) == (if x < 0 then "-" else "") + body;
  }

  /** `new Integer(x.toString())` is `x` when `x` fits 32 bits, and a NumberFormatException when it overflows. */
  lemma IntRoundTrip(x: int)
    ensures ParseInt(ToDecimal(x)) == if -TWO_31 <= x < TWO_31 then Ok(x) else Err(NumberFormat(ToDecimal(x)))
  {
    ParseToDecimal(x, -TWO_31, TWO_31);
  }

  /** `new Long(x.toString())` is `x` when `x` fits 64 bits, and a NumberFormatException when it overflows. */
  lemma LongRoundTrip(x: int)
    ensures ParseLong(ToDecimal(x)) == if -TWO_63 <= x < TWO_63 then Ok(x) else Err(NumberFormat(ToDecimal(x)))
  {
    ParseToDecimal(x, -TWO_63, TWO_63);
  }

  /** Distinct numbers print differently, so the text form loses nothing. */
  lemma ToDecimalInjective(x: int, y: int)
    requires ToDecimal(x) == ToDecimal(y)
    ensures x == y
  {
    var lo := if x < y then x else y;
    var hi := if x < y then y + 1 else x + 1;
    ParseToDecimal(x, lo, hi);
    ParseToDecimal(y, lo, hi);
  }
}

=== FILE: java_values.dfy ===
/**
 Declared Java field types and runtime Java values, as far as the mapper
 distinguishes them. Reflection's `getType().getCanonicalName()` becomes the
 `Type` datatype; the generic type argument of a `List`/`Map` field is carried
 in the type itself instead of being looked up at decode time.
 */
module JavaValues {
  import opened Results
  import opened JavaNumbers

  /**
   A declared field type. `prim` distinguishes `int` from `java.lang.Integer`
   (and so on): a primitive field can never hold null. `arg` is the generic
   type argument of a `List` element or a `Map` value; `None` is a raw type.
   */
  datatype Type =
    | Int(prim: bool)
    | Long(prim: bool)
    | Double(prim: bool)
    | Float(prim: bool)
    | Boolean(prim: bool)
    | List(arg: Option<Type>)       // java.util.List
    | ArrayList(arg: Option<Type>)  // java.util.ArrayList
    | Map(arg: Option<Type>)        // java.util.Map<String, arg>
    | Date                          // java.util.Date
    | Str                           // java.lang.String
    | Class(name: string)           // any other class, looked up in the schema

  /**
   A runtime value. Floating-point numbers are kept as their IEEE bit
   patterns; a `Date` as its milliseconds since the Unix epoch. `ObjV` is an
   instance of a schema class, its fields keyed by Java field name.
   */
  datatype Value =
    | Null
    | IntV(i: Int32)
    | LongV(l: Int64)
    | DoubleV(d: bv64)
    | FloatV(f: bv32)
    | BoolV(b: bool)
    | ListV(items: seq<Value>)           // a java.util.ArrayList
    | MapV(entries: map<string, Value>)  // a java.util.HashMap<String, ?>
    | DateV(millis: Int64)
    | StrV(s: string)
    | ObjV(cls: string, fields: map<string, Value>)

  predicate IsPrimitive(t: Type) {
    match t
    case Int(p) => p
    case Long(p) => p
    case Double(p) => p
    case Float(p) => p
    case Boolean(p) => p
    case _ => false
  }

  /** A generic type argument that is itself parameterized (`List<X>`, `Map<String, X>`). */
  predicate Parameterized(t: Type) {
    (t.List? || t.ArrayList? || t.Map?) && t.arg.Some?
  }

  /**
   A field of declared type `t` may hold `v`: `Field.set` accepts it.
   Generics are erased, so the elements of a list or map are not checked.
   */
  predicate Conforms(v: Value, t: Type) {
    match v
    case Null => !IsPrimitive(t)
    case IntV(_) => t.Int?
    case LongV(_) => t.Long?
    case DoubleV(_) => t.Double?
    case FloatV(_) => t.Float?
    case BoolV(_) => t.Boolean?
    case ListV(_) => t.List? || t.ArrayList?
    case MapV(_) => t.Map?
    case DateV(_) => t.Date?
    case StrV(_) => t.Str?
    case ObjV(c, _) => t == Class(c)
  }

  /**
   `v.getClass()`, used to encode list elements and map values. A HashMap
   is treated as a `Map` (see README: the object-to-map conversion).
   */
  function RuntimeType(v: Value): (t: Type)
    requires !v.Null?
    ensures Conforms(v, t)
    ensures !IsPrimitive(t)
  {
    match v
    case IntV(_) => Int(false)
    case LongV(_) => Long(false)
    case DoubleV(_) => Double(false)
    case FloatV(_) => Float(false)
    case BoolV(_) => Boolean(false)
    case ListV(_) => ArrayList(None)
    case MapV(_) => Map(None)
    case DateV(_) => Date
    case StrV(_) => Str
    case ObjV(c, _) => Class(c)
  }

  /** The elements of `xs` that are not null, in order. */
  function NonNull(xs: seq<Value>): (r: seq<Value>)
    ensures forall y | y in r :: y in xs && !y.Null?
    ensures forall x | x in xs && !x.Null? :: x in r
    ensures |r| <= |xs|
  {
    if |xs| == 0 then []
    else (if xs[0].Null? then [] else [xs[0]]) + NonNull(xs[1..])
  }

  /** The entries of `m` whose value is not null. */
  function NonNullEntries(m: map<string, Value>): (r: map<string, Value>)
    ensures forall k | k in r :: k in m && r[k] == m[k] && !r[k].Null?
    ensures forall k | k in m && !m[k].Null? :: k in r
  {
    map k | k in m && !m[k].Null? :: m[k]
  }
}

=== FILE: keygen.dfy ===
/**
 Surrogate key generation of `DDBMapper`: `keyGen` and `generateRowId`, with
 the clock, the random draws and the UUID passed in as a `Draw`.
 */
module KeyGen {
  import opened Results
  import opened JavaNumbers
  import opened JavaValues
  import opened Descriptors
  import opened Codec

  /** The resolution modes (`GET_MODE`, `PUT_MODE`, `UPDATE_MODE`); the mode is a plain `int`. */
  const GET_MODE: int := 0
  const PUT_MODE: int := 1
  const UPDATE_MODE: int := 2

  /** Milliseconds since the Unix epoch that row ids count from (`CUSTOMEPOCH`). */
  const CUSTOM_EPOCH: int := 1300000000000

  /** `Math.floor(Math.random() * 64)` and `Math.floor(Math.random() * 512)`. */
  type Shard = x: int | 0 <= x < 64
  type SeqNo = x: int | 0 <= x < 512

  /**
   What one key generation reads from its environment: the clock
   (`new Date().getTime()`), a random UUID and the two random draws.
   */
  datatype Draw = Draw(now: Int64, uuid: string, shard: Shard, sequence: SeqNo)

  /**
   `generateRowId`: `((now - CUSTOMEPOCH) * 64 + shard) * 512 + sequence % 512`,
   every step in wrapping 64-bit `long` arithmetic.
   */
  function RowId(now: Int64, shard: Shard, sequence: SeqNo): (r: Int64)
    ensures r % 512 == sequence
  {
    var ts := Wrap64(now - CUSTOM_EPOCH);
    var shifted := Wrap64(ts * 64);
    var withShard := Wrap64(shifted + shard);
    SequenceInLowBits(withShard, sequence);
    Wrap64(Wrap64(withShard * 512) + sequence % 512)
  }

  /** Wrapping into a `long` changes a number by a multiple of 2^64, so it keeps the low nine bits. */
  lemma WrapKeepsLowBits(x: int)
    ensures Wrap64(x) % 512 == x % 512
  {
    var k := (Wrap64(x) - x) / TWO_64;
    assert Wrap64(x) == x + (k * 0x80_0000_0000_0000) * 512;
  }

  /** The last step of `generateRowId` leaves the sequence draw in the low nine bits. */
  lemma SequenceInLowBits(w: Int64, sequence: SeqNo)
    ensures Wrap64(Wrap64(w * 512) + sequence % 512) % 512 == sequence
  {
    var high := Wrap64(w * 512);
    WrapKeepsLowBits(w * 512);
    assert high % 512 == 0;
    WrapKeepsLowBits(high + sequence);
  }

  /** A freshly generated key value for a strategy other than `GenNone`. */
  function Generate(gen: Gen, d: Draw, fmt: Formats): (v: Value)
    requires gen != GenNone
    ensures v.StrV? || v.LongV?
    ensures v.LongV? <==> gen == GenNum
  {
    match gen
    case GenUuid => StrV(d.uuid)
    case GenNum => LongV(RowId(d.now, d.shard, d.sequence))
    case GenNumStr => StrV(ToDecimal(RowId(d.now, d.shard, d.sequence)))
    case GenMonth => StrV(fmt.formatMonth(d.now))
    case GenDay => StrV(fmt.formatDay(d.now))
  }

  /** `String.valueOf` of a generated key, as `prefix + keyValue` uses it. */
  function KeyText(v: Value): string
    requires v.StrV? || v.LongV?
  {
    if v.StrV? then v.s else ToDecimal(v.l)
  }

  /** The key `keyGen` settles on, and whether it generated (and wrote back) that key. */
  datatype Key = Key(value: Value, generated: bool)

  /** A key is generated only in PUT mode, for an empty field, under a strategy other than `GenNone`. */
  predicate Generates(mode: int, gen: Gen, current: Value) {
    mode == PUT_MODE && current.Null? && gen != GenNone
  }

  /**
   `keyGen(entity, option, field, gen, keyValue, prefix)`. A generated key
   gets a non-empty prefix prepended and is written back into the field,
   which fails when the field's type cannot hold it: a `String` field holds
   any strategy's key, a `long` field only an unprefixed `NUM` key. Any
   other empty key is a NOKeyException; a present key is kept as it is.
   */
  function KeyGen(mode: int, f: Field, gen: Gen, current: Value, prefix: Option<string>, d: Draw, fmt: Formats)
    : (r: Result<Key>)
    ensures r.Ok? ==> !r.value.value.Null?
    ensures r.Ok? && r.value.generated ==> Generates(mode, gen, current) && Conforms(r.value.value, f.ty)
    ensures Generates(mode, gen, current) ==> (r.Ok? && r.value.generated) || r == Err(IllegalArgument(f.name))
    ensures Generates(mode, gen, current) ==>
      (r.Ok? <==> if gen == GenNum && (prefix.None? || prefix.value == "") then f.ty.Long? else f.ty.Str?)
    ensures !current.Null? ==> r == Ok(Key(current, false))
    ensures current.Null? && !Generates(mode, gen, current) ==> r.Err? && r.error.NoKey?
    ensures r.Ok? && r.value.generated && prefix.Some? && prefix.value != "" ==>
      r.value.value == StrV(prefix.value + KeyText(Generate(gen, d, fmt)))
    ensures r.Ok? && r.value.generated && (prefix.None? || prefix.value == "") ==>
      r.value.value == Generate(gen, d, fmt)
  {
    if Generates(mode, gen, current) then
      var generated := Generate(gen, d, fmt);
      var key := if prefix.Some? && prefix.value != "" then StrV(prefix.value + KeyText(generated)) else generated;
      if Conforms(key, f.ty) then Ok(Key(key, true)) else Err(IllegalArgument(f.name))
    else if current.Null? then Err(NoKey(f.name + "'s value is required."))
    else Ok(Key(current, false))
  }
}

=== FILE: keygen_props.dfy ===
/** Properties of row ids and generated keys. */
module KeyGenProps {
  import opened Results
  import opened JavaNumbers
  import opened JavaValues
  import opened Descriptors
  import opened Codec
  import opened KeyGen

  const TWO_9: int := 512
  const TWO_15: int := 32768
  const TWO_48: int := 0x1_0000_0000_0000

  /** The clock range in which no step of `generateRowId` overflows. */
  predicate InLayout(now: Int64) {
    -TWO_48 <= now - CUSTOM_EPOCH < TWO_48
  }

  /**
   Within the clock range where nothing overflows, a row id packs the
   timestamp above 15 bits, the shard in bits 9..14 and the sequence in bits
   0..8, and each part can be read back.
   */
  lemma RowIdLayout(now: Int64, shard: Shard, sequence: SeqNo)
    requires InLayout(now)
    ensures var ts := now - CUSTOM_EPOCH;
      var id := RowId(now, shard, sequence);
      && id == ts * TWO_15 + shard * TWO_9 + sequence
      && id / TWO_15 == ts
      && (id / TWO_9) % 64 == shard
      && id % TWO_9 == sequence
  {
    var ts := now - CUSTOM_EPOCH;
    assert -TWO_63 <= ts * 64 < TWO_63;
    assert -TWO_63 <= ts * 64 + shard < TWO_63;
    assert -TWO_63 <= (ts * 64 + shard) * 512 < TWO_63;
    assert (ts * 64 + shard) * 512 + sequence == ts * TWO_15 + shard * TWO_9 + sequence;
    var id := ts * TWO_15 + shard * TWO_9 + sequence;
    assert id == (ts * 64 + shard) * TWO_9 + sequence;
    assert id / TWO_9 == ts * 64 + shard;
    assert id % TWO_9 == sequence;
    assert (ts * 64 + shard) % 64 == shard;
    assert id == ts * TWO_15 + (shard * TWO_9 + sequence);
    assert 0 <= shard * TWO_9 + sequence < TWO_15;
  }

  /** A strictly later millisecond gives a strictly larger row id, whatever the random draws. */
  lemma RowIdMonotonic(now1: Int64, shard1: Shard, sequence1: SeqNo, now2: Int64, shard2: Shard, sequence2: SeqNo)
    requires InLayout(now1) && InLayout(now2) && now1 < now2
    ensures RowId(now1, shard1, sequence1) < RowId(now2, shard2, sequence2)
  {
    RowIdLayout(now1, shard1, sequence1);
    RowIdLayout(now2, shard2, sequence2);
    var ts1 := now1 - CUSTOM_EPOCH;
    var ts2 := now2 - CUSTOM_EPOCH;
    assert ts1 * TWO_15 + TWO_15 <= ts2 * TWO_15;
  }

  /**
   Two row ids from the same layout range coincide exactly when the
   millisecond and both draws coincide.
   */
  lemma RowIdInjective(now1: Int64, shard1: Shard, sequence1: SeqNo, now2: Int64, shard2: Shard, sequence2: SeqNo)
    requires InLayout(now1) && InLayout(now2)
    ensures RowId(now1, shard1, sequence1) == RowId(now2, shard2, sequence2) <==> now1 == now2 && shard1 == shard2 && sequence1 == sequence2
  {
    RowIdLayout(now1, shard1, sequence1);
    RowIdLayout(now2, shard2, sequence2);
  }

  /** The `NUM_STR` key is the decimal text of the `NUM` key drawn from the same environment. */
  lemma NumStrIsNumText(d: Draw, fmt: Formats)
    ensures Generate(GenNumStr, d, fmt).StrV?
    ensures ParseLong(Generate(GenNumStr, d, fmt).s) == Ok(Generate(GenNum, d, fmt).l)
  {
    LongRoundTrip(RowId(d.now, d.shard, d.sequence));
  }
}

=== FILE: repository.dfy ===
/**
 `DynamoCRUDRepository`: the five single-item operations, each built on
 `extractEntityMeta`. The store is not modelled; its replies to `getItem`
 and `query` are parameters, and each operation reports the request it
 sends.
 */
module Repository {
  import opened Results
  import opened Wire
  import opened JavaValues
  import opened Descriptors
  import opened Codec
  import opened KeyGen
  import opened Resolver
  import opened ResolverProps
  import CodecProps

  /** A `HashMap<String, AttributeValue>` that may hold the null key, as the key map of `getItem` can. */
  type KeyMap = map<Option<string>, Option<AV>>

  /** The requests the repository sends to the store. */
  datatype Request =
    | GetItem(table: string, itemKey: KeyMap)
    | Query(table: string, condition: string, values: map<string, Option<AV>>)
    | PutItem(table: string, item: AttrMap)
    | UpdateItem(table: string, key: AttrMap, updates: map<string, AttrUpdate>)
    | DeleteItem(table: string, key: AttrMap)

  /**
   What the store answers: the item `getItem` finds (`None` for a null
   `item()`), and the items `query` finds.
   */
  datatype Store = Store(getItem: Request -> Option<WireMap>, query: Request -> seq<WireMap>)

  /** The key condition of `queryByRangeKey` and its two placeholders. */
  const KEY_CONDITION := "pk = :pk and begins_with(typeRange, :typeRange)"
  const PK := ":pk"
  const TYPE_RANGE := ":typeRange"

  /**
   What a repository call leaves behind: the caller's record afterwards
   (keys generated by `saveItem` stay written back even when it throws), the
   request it sent, if any, and its return value or exception.
   */
  datatype Outcome<T> = Outcome(entity: Value, sent: Option<Request>, result: Result<T>)

  /** The mapper's view of the program: the classes, the text conversions and the clock. */
  datatype Context = Context(s: Schema, fmt: Formats, clock: nat -> Draw)

  /** What Java guarantees about a record handed to the repository. */
  predicate Accepts(ctx: Context, t: Value) {
    JavaWellFormed(ctx.s) && (t.ObjV? && t.cls in ctx.s ==> Typed(ctx.s[t.cls].fields, t.fields))
  }

  /** A record of a `@DDBTable` class. */
  predicate TableRecord(ctx: Context, t: Value) {
    t.ObjV? && t.cls in ctx.s && ctx.s[t.cls].table.Some?
  }

  /**
   The key map of `getItem`: the hash key under its name (null when no
   field is a hash key), and the range key under its name when there is one,
   which wins should the two names coincide.
   */
  function ItemKey(meta: TableMeta): (r: KeyMap)
    ensures meta.hashKeyName in r
    ensures meta.rangeKeyName.Some? ==> meta.rangeKeyName in r && r[meta.rangeKeyName] == meta.rangeKeyValue
    ensures meta.rangeKeyName.None? || meta.rangeKeyName != meta.hashKeyName ==> r[meta.hashKeyName] == meta.hashKeyValue
    ensures forall k | k in r :: k == meta.hashKeyName || (meta.rangeKeyName.Some? && k == meta.rangeKeyName)
  {
    var key := map[meta.hashKeyName := meta.hashKeyValue];
    if meta.rangeKeyName.Some? then key[meta.rangeKeyName := meta.rangeKeyValue] else key
  }

  /**
   `t.getClass().newInstance()`: a well-typed record of class `c` holding what
   its constructor leaves, or an instantiation failure for a class without an
   accessible no-argument constructor.
   */
  function Fresh(s: Schema, c: string): (r: Result<Value>)
    requires c in s && ClassWellFormed(s[c])
    ensures r.Ok? <==> s[c].init.Some?
    ensures r.Ok? ==> InstanceOf(s, r.value, c) && r.value.fields == s[c].init.value
    ensures r.Err? ==> r.error == Instantiation(c)
  {
    var vals :- NewInstance(c, s[c]);
    Ok(ObjV(c, vals))
  }

  /**
   `t.getClass().newInstance()` followed by `populateEntity(newT, item)`: a
   fresh record of class `c` filled from one answer item.
   */
  ghost function PopulateFresh(s: Schema, fmt: Formats, c: string, item: WireMap): (r: Result<Value>)
    requires c in s && ClassWellFormed(s[c])
    ensures r.Ok? ==> InstanceOf(s, r.value, c)
  {
    var blank :- Fresh(s, c);
    CodecProps.PopulateKeepsTyped(s, fmt, c, blank.fields, item);
    PopulateEntity(s, fmt, blank, item)
  }

  /**
   `getItem(t)`: resolve in GET mode, ask the store for the item under the
   resolved key, and populate a fresh record from a non-empty answer; a null
   or empty answer is a null result.
   */
  ghost function GetItemOp(ctx: Context, store: Store, t: Value): (r: Outcome<Option<Value>>)
    requires Accepts(ctx, t)
    ensures r.entity == t
    ensures !TableRecord(ctx, t) ==> r == Outcome(t, None, Err(ModelError(TABLE_MISSING)))
    ensures r.sent.None? <==> Resolve(ctx.s, ctx.fmt, ctx.clock, t, GET_MODE).meta.Err?
    ensures r.sent.None? ==> r.result == Err(Resolve(ctx.s, ctx.fmt, ctx.clock, t, GET_MODE).meta.error)
    ensures r.sent.Some? ==> r.sent.value.GetItem? && r.sent.value.table == ctx.s[t.cls].table.value
    ensures r.sent.Some? && (store.getItem(r.sent.value).None? || store.getItem(r.sent.value).value == map[]) ==>
      r.result == Ok(None)
    ensures r.sent.Some? && store.getItem(r.sent.value).Some? && store.getItem(r.sent.value).value != map[] ==>
      r.result == (var p := PopulateFresh(ctx.s, ctx.fmt, t.cls, store.getItem(r.sent.value).value);
        if p.Ok? then Ok(Some(p.value)) else Err(p.error))
    ensures r.result.Ok? && r.result.value.Some? ==> InstanceOf(ctx.s, r.result.value.value, t.cls)
  {
    var res := Resolve(ctx.s, ctx.fmt, ctx.clock, t, GET_MODE);
    assert res.entity == t by {
      if TableRecord(ctx, t) {
        ResolveOutcome(ctx.s, ctx.fmt, ctx.clock, t, GET_MODE);
      }
    }
    match res.meta
    case Err(e) => Outcome(res.entity, None, Err(e))
    case Ok(meta) =>
      ResolveOutcome(ctx.s, ctx.fmt, ctx.clock, t, GET_MODE);
      var request := GetItem(meta.tableName, ItemKey(meta));
      var item := store.getItem(request);
      if item.None? || item.value == map[] then Outcome(res.entity, Some(request), Ok(None))
      else
        match PopulateFresh(ctx.s, ctx.fmt, t.cls, item.value)
        case Ok(v) => Outcome(res.entity, Some(request), Ok(Some(v)))
        case Err(e) => Outcome(res.entity, Some(request), Err(e))
  }

  /**
   The loop of `queryByRangeKey` over the items found: a fresh record of
   class `c` populated from each, in order; the first item that cannot be
   populated ends the loop with its exception.
   */
  ghost function PopulateAll(s: Schema, fmt: Formats, c: string, items: seq<WireMap>): (r: Result<seq<Value>>)
    requires c in s && ClassWellFormed(s[c])
    ensures r.Ok? ==> |r.value| == |items| && forall i | 0 <= i < |items| :: InstanceOf(s, r.value[i], c)
  {
    if |items| == 0 then Ok([])
    else
      var first :- PopulateFresh(s, fmt, c, items[0]);
      var rest :- PopulateAll(s, fmt, c, items[1..]);
      Ok([first] + rest)
  }

  /**
   `queryByRangeKey(t)`: resolve in GET mode, query with the hash key bound
   to `:pk` and the range key to `:typeRange`, and populate a fresh record
   from every item found.
   */
  ghost function QueryOp(ctx: Context, store: Store, t: Value): (r: Outcome<seq<Value>>)
    requires Accepts(ctx, t)
    ensures r.entity == t
    ensures !TableRecord(ctx, t) ==> r == Outcome(t, None, Err(ModelError(TABLE_MISSING)))
    ensures r.sent.None? <==> Resolve(ctx.s, ctx.fmt, ctx.clock, t, GET_MODE).meta.Err?
    ensures r.sent.None? ==> r.result == Err(Resolve(ctx.s, ctx.fmt, ctx.clock, t, GET_MODE).meta.error)
    ensures r.sent.Some? ==> (r.sent.value.Query? && r.sent.value.table == ctx.s[t.cls].table.value
      && r.sent.value.condition == KEY_CONDITION && r.sent.value.values.Keys == {PK, TYPE_RANGE})
    ensures r.sent.Some? ==> r.result == PopulateAll(ctx.s, ctx.fmt, t.cls, store.query(r.sent.value))
    ensures r.result.Ok? ==> (|r.result.value| == |store.query(r.sent.value)|
      && forall i | 0 <= i < |r.result.value| :: InstanceOf(ctx.s, r.result.value[i], t.cls))
  {
    var res := Resolve(ctx.s, ctx.fmt, ctx.clock, t, GET_MODE);
    assert res.entity == t by {
      if TableRecord(ctx, t) {
        ResolveOutcome(ctx.s, ctx.fmt, ctx.clock, t, GET_MODE);
      }
    }
    match res.meta
    case Err(e) => Outcome(res.entity, None, Err(e))
    case Ok(meta) =>
      ResolveOutcome(ctx.s, ctx.fmt, ctx.clock, t, GET_MODE);
      var request := Query(meta.tableName, KEY_CONDITION, map[PK := meta.hashKeyValue, TYPE_RANGE := meta.rangeKeyValue]);
      Outcome(res.entity, Some(request), PopulateAll(ctx.s, ctx.fmt, t.cls, store.query(request)))
  }

  /**
   `saveItem(t)`: resolve in PUT mode (generating missing keys into `t`) and
   put the full attribute map; the result is `t` itself.
   */
  function SaveItemOp(ctx: Context, t: Value): (r: Outcome<Value>)
    requires Accepts(ctx, t)
    ensures !TableRecord(ctx, t) ==> r == Outcome(t, None, Err(ModelError(TABLE_MISSING)))
    ensures r.sent.None? <==> Resolve(ctx.s, ctx.fmt, ctx.clock, t, PUT_MODE).meta.Err?
    ensures r.sent.None? ==> r.result == Err(Resolve(ctx.s, ctx.fmt, ctx.clock, t, PUT_MODE).meta.error)
    ensures r.sent.Some? ==> (r.result == Ok(r.entity) && r.sent.value.PutItem?
      && r.sent.value.table == ctx.s[t.cls].table.value)
    ensures t.ObjV? && t.cls in ctx.s ==> InstanceOf(ctx.s, r.entity, t.cls)
  {
    var res := Resolve(ctx.s, ctx.fmt, ctx.clock, t, PUT_MODE);
    match res.meta
    case Err(e) => Outcome(res.entity, None, Err(e))
    case Ok(meta) =>
      ResolveOutcome(ctx.s, ctx.fmt, ctx.clock, t, PUT_MODE);
      Outcome(res.entity, Some(PutItem(meta.tableName, meta.attributes)), Ok(res.entity))
  }

  /**
   `updateItem(t)`: resolve in UPDATE mode and send the attribute map as
   the key together with the update map; the result is `t` itself.
   */
  function UpdateItemOp(ctx: Context, t: Value): (r: Outcome<Value>)
    requires Accepts(ctx, t)
    ensures r.entity == t
    ensures !TableRecord(ctx, t) ==> r == Outcome(t, None, Err(ModelError(TABLE_MISSING)))
    ensures r.sent.None? <==> Resolve(ctx.s, ctx.fmt, ctx.clock, t, UPDATE_MODE).meta.Err?
    ensures r.sent.None? ==> r.result == Err(Resolve(ctx.s, ctx.fmt, ctx.clock, t, UPDATE_MODE).meta.error)
    ensures r.sent.Some? ==> (r.result == Ok(t) && r.sent.value.UpdateItem?
      && r.sent.value.table == ctx.s[t.cls].table.value)
  {
    var res := Resolve(ctx.s, ctx.fmt, ctx.clock, t, UPDATE_MODE);
    assert res.entity == t by {
      if TableRecord(ctx, t) {
        ResolveOutcome(ctx.s, ctx.fmt, ctx.clock, t, UPDATE_MODE);
      }
    }
    match res.meta
    case Err(e) => Outcome(res.entity, None, Err(e))
    case Ok(meta) =>
      ResolveOutcome(ctx.s, ctx.fmt, ctx.clock, t, UPDATE_MODE);
      Outcome(res.entity, Some(UpdateItem(meta.tableName, meta.attributes, meta.updates)), Ok(res.entity))
  }

  /** `deleteItem(t)`: resolve in UPDATE mode and delete under the attribute map; the result is always 1. */
  function DeleteItemOp(ctx: Context, t: Value): (r: Outcome<int>)
    requires Accepts(ctx, t)
    ensures r.entity == t
    ensures !TableRecord(ctx, t) ==> r == Outcome(t, None, Err(ModelError(TABLE_MISSING)))
    ensures r.sent.None? <==> Resolve(ctx.s, ctx.fmt, ctx.clock, t, UPDATE_MODE).meta.Err?
    ensures r.sent.None? ==> r.result == Err(Resolve(ctx.s, ctx.fmt, ctx.clock, t, UPDATE_MODE).meta.error)
    ensures r.sent.Some? ==> (r.result == Ok(1) && r.sent.value.DeleteItem?
      && r.sent.value.table == ctx.s[t.cls].table.value)
  {
    var res := Resolve(ctx.s, ctx.fmt, ctx.clock, t, UPDATE_MODE);
    assert res.entity == t by {
      if TableRecord(ctx, t) {
        ResolveOutcome(ctx.s, ctx.fmt, ctx.clock, t, UPDATE_MODE);
      }
    }
    match res.meta
    case Err(e) => Outcome(res.entity, None, Err(e))
    case Ok(meta) =>
      ResolveOutcome(ctx.s, ctx.fmt, ctx.clock, t, UPDATE_MODE);
      Outcome(res.entity, Some(DeleteItem(meta.tableName, meta.attributes)), Ok(1))
  }
}

=== FILE: repository_props.dfy ===
/**
 What the repository's requests carry, stated against the record's declared
 fields, and what its populate loop returns.
 */
module RepositoryProps {
  import opened Results
  import opened Wire
  import opened JavaValues
  import opened Descriptors
  import opened Codec
  import opened KeyGen
  import opened Resolver
  import opened ResolverProps
  import opened Repository
  import CodecProps

  /**
   The populate loop of `queryByRangeKey` succeeds exactly when every item
   populates a fresh record, and then returns those records in order;
   otherwise it throws the exception of the first item that does not.
   */
  lemma {:induction false} PopulateAllSpec(s: Schema, fmt: Formats, c: string, items: seq<WireMap>)
    requires c in s && ClassWellFormed(s[c])
    ensures var r := PopulateAll(s, fmt, c, items);
      && (r.Ok? <==> forall i | 0 <= i < |items| :: PopulateFresh(s, fmt, c, items[i]).Ok?)
      && (r.Ok? ==> forall i | 0 <= i < |items| :: r.value[i] == PopulateFresh(s, fmt, c, items[i]).value)
      && (r.Err? ==> exists i | 0 <= i < |items| ::
            && (forall j | 0 <= j < i :: PopulateFresh(s, fmt, c, items[j]).Ok?)
            && PopulateFresh(s, fmt, c, items[i]).Err?
            && r == Err(PopulateFresh(s, fmt, c, items[i]).error))
  {
    if |items| > 0 {
      var rest := items[1..];
      PopulateAllSpec(s, fmt, c, rest);
      assert forall i | 0 <= i < |rest| :: rest[i] == items[i + 1];
      var r := PopulateAll(s, fmt, c, items);
      var first := PopulateFresh(s, fmt, c, items[0]);
      if first.Ok? && PopulateAll(s, fmt, c, rest).Err? {
        var i :| 0 <= i < |rest|
          && (forall j | 0 <= j < i :: PopulateFresh(s, fmt, c, rest[j]).Ok?)
          && PopulateFresh(s, fmt, c, rest[i]).Err?
          && PopulateAll(s, fmt, c, rest) == Err(PopulateFresh(s, fmt, c, rest[i]).error);
        assert forall j | 0 <= j < i + 1 :: PopulateFresh(s, fmt, c, items[j]).Ok? by {
          forall j | 0 <= j < i + 1 ensures PopulateFresh(s, fmt, c, items[j]).Ok? {
            if j > 0 {
              assert items[j] == rest[j - 1];
            }
          }
        }
      }
    }
  }

  /** `extractEntityMeta` as the repository calls it: the pass over the record's declared fields. */
  lemma ResolveIsPass(ctx: Context, t: Value, mode: int)
    requires Accepts(ctx, t) && TableRecord(ctx, t)
    ensures var input := TableInput(ctx.s, ctx.fmt, ctx.clock, t, mode);
      Resolve(ctx.s, ctx.fmt, ctx.clock, t, mode).meta == Prefix(input, |input.fields|).meta
  {
  }

  /**
   `saveItem` sends a put exactly when every field gets past resolution; the
   item then holds exactly the attribute names of the key fields and of the
   fields not marked `@DDBIgnore`, and the caller's record holds every
   field's settled value: generated keys are written back.
   */
  lemma SaveSendsRecord(ctx: Context, t: Value)
    requires Accepts(ctx, t) && TableRecord(ctx, t)
    ensures var input := TableInput(ctx.s, ctx.fmt, ctx.clock, t, PUT_MODE);
      var n := |input.fields|;
      var r := SaveItemOp(ctx, t);
      && (r.sent.Some? <==> AllOk(input, n))
      && (r.sent.Some? ==> forall k :: k in r.sent.value.item <==>
            exists i | 0 <= i < n :: (IsKey(input.fields[i]) || !input.fields[i].ignored) && AttrKey(input.fields[i]) == k)
      && (r.sent.Some? ==> forall i | 0 <= i < n :: r.entity.fields[input.fields[i].name] == Settled(input, i))
  {
    var input := TableInput(ctx.s, ctx.fmt, ctx.clock, t, PUT_MODE);
    ResolveIsPass(ctx, t, PUT_MODE);
    ResolveOutcome(ctx.s, ctx.fmt, ctx.clock, t, PUT_MODE);
    PrefixAttrKeys(input, |input.fields|);
  }

  /** In the item `saveItem` puts, the last field written under a name decides its value: its settled value, encoded. */
  lemma SaveItemValue(ctx: Context, t: Value, i: nat)
    requires Accepts(ctx, t) && TableRecord(ctx, t)
    requires var input := TableInput(ctx.s, ctx.fmt, ctx.clock, t, PUT_MODE);
      && i < |input.fields| && WritesAttr(PUT_MODE, input.fields[i])
      && forall j | i < j < |input.fields| :: WritesAttr(PUT_MODE, input.fields[j]) ==> AttrKey(input.fields[j]) != AttrKey(input.fields[i])
    ensures var input := TableInput(ctx.s, ctx.fmt, ctx.clock, t, PUT_MODE);
      var f := input.fields[i];
      var r := SaveItemOp(ctx, t);
      r.sent.Some? ==> (AttrKey(f) in r.sent.value.item
        && r.sent.value.item[AttrKey(f)] == Encode(ctx.fmt, f.ty, Settled(input, i)))
  {
    var input := TableInput(ctx.s, ctx.fmt, ctx.clock, t, PUT_MODE);
    ResolveIsPass(ctx, t, PUT_MODE);
    PrefixAttrValue(input, |input.fields|, i);
  }

  /**
   `updateItem` sends an update exactly when every field gets past
   resolution; its key then holds exactly the key fields' attribute names,
   and its update map exactly the names of the updateable, unignored
   non-key fields.
   */
  lemma UpdateSendsKeys(ctx: Context, t: Value)
    requires Accepts(ctx, t) && TableRecord(ctx, t)
    ensures var input := TableInput(ctx.s, ctx.fmt, ctx.clock, t, UPDATE_MODE);
      var n := |input.fields|;
      var r := UpdateItemOp(ctx, t);
      && (r.sent.Some? <==> AllOk(input, n))
      && (r.sent.Some? ==> forall k :: k in r.sent.value.key <==>
            exists i | 0 <= i < n :: IsKey(input.fields[i]) && AttrKey(input.fields[i]) == k)
      && (r.sent.Some? ==> forall k :: k in r.sent.value.updates <==>
            exists i | 0 <= i < n :: WritesUpdate(UPDATE_MODE, input.fields[i]) && AttrName(input.fields[i]) == k)
  {
    var input := TableInput(ctx.s, ctx.fmt, ctx.clock, t, UPDATE_MODE);
    ResolveIsPass(ctx, t, UPDATE_MODE);
    PrefixSucceeds(input, |input.fields|);
    PrefixAttrKeys(input, |input.fields|);
    PrefixUpdateKeys(input, |input.fields|);
  }

  /** In the update map of `updateItem`, the last field written under a name decides its value: a PUT of its value, encoded. */
  lemma UpdateItemValue(ctx: Context, t: Value, i: nat)
    requires Accepts(ctx, t) && TableRecord(ctx, t)
    requires var input := TableInput(ctx.s, ctx.fmt, ctx.clock, t, UPDATE_MODE);
      && i < |input.fields| && WritesUpdate(UPDATE_MODE, input.fields[i])
      && forall j | i < j < |input.fields| :: WritesUpdate(UPDATE_MODE, input.fields[j]) ==> AttrName(input.fields[j]) != AttrName(input.fields[i])
    ensures var input := TableInput(ctx.s, ctx.fmt, ctx.clock, t, UPDATE_MODE);
      var f := input.fields[i];
      var r := UpdateItemOp(ctx, t);
      r.sent.Some? ==> (AttrName(f) in r.sent.value.updates
        && r.sent.value.updates[AttrName(f)] == AttrUpdate(Encode(ctx.fmt, f.ty, t.fields[f.name]), ActionPut))
  {
    var input := TableInput(ctx.s, ctx.fmt, ctx.clock, t, UPDATE_MODE);
    ResolveIsPass(ctx, t, UPDATE_MODE);
    PrefixUpdateValue(input, |input.fields|, i);
  }

  /**
   The key of `updateItem` carries the record's own key values: under each
   name, the value of the last key field written under it, encoded.
   */
  lemma UpdateKeyValue(ctx: Context, t: Value, i: nat)
    requires Accepts(ctx, t) && TableRecord(ctx, t)
    requires var input := TableInput(ctx.s, ctx.fmt, ctx.clock, t, UPDATE_MODE);
      && i < |input.fields| && IsKey(input.fields[i])
      && forall j | i < j < |input.fields| :: IsKey(input.fields[j]) ==> AttrKey(input.fields[j]) != AttrKey(input.fields[i])
    ensures var f := ctx.s[t.cls].fields[i];
      var r := UpdateItemOp(ctx, t);
      r.sent.Some? ==> (AttrKey(f) in r.sent.value.key
        && r.sent.value.key[AttrKey(f)] == Encode(ctx.fmt, f.ty, t.fields[f.name]))
  {
    var input := TableInput(ctx.s, ctx.fmt, ctx.clock, t, UPDATE_MODE);
    ResolveIsPass(ctx, t, UPDATE_MODE);
    PrefixAttrValue(input, |input.fields|, i);
    SettledOutsidePut(input, i);
  }

  /**
   `deleteItem` sends a delete exactly when every field gets past resolution
   in UPDATE mode; its key then holds exactly the key fields' attribute names.
   */
  lemma DeleteSendsKeys(ctx: Context, t: Value)
    requires Accepts(ctx, t) && TableRecord(ctx, t)
    ensures var input := TableInput(ctx.s, ctx.fmt, ctx.clock, t, UPDATE_MODE);
      var n := |input.fields|;
      var r := DeleteItemOp(ctx, t);
      && (r.sent.Some? <==> AllOk(input, n))
      && (r.sent.Some? ==> forall k :: k in r.sent.value.key <==>
            exists i | 0 <= i < n :: IsKey(input.fields[i]) && AttrKey(input.fields[i]) == k)
  {
    var input := TableInput(ctx.s, ctx.fmt, ctx.clock, t, UPDATE_MODE);
    ResolveIsPass(ctx, t, UPDATE_MODE);
    PrefixSucceeds(input, |input.fields|);
    PrefixAttrKeys(input, |input.fields|);
  }

  /**
   The key of `deleteItem` carries the record's own key values: under each
   name, the value of the last key field written under it, encoded.
   */
  lemma DeleteKeyValue(ctx: Context, t: Value, i: nat)
    requires Accepts(ctx, t) && TableRecord(ctx, t)
    requires var input := TableInput(ctx.s, ctx.fmt, ctx.clock, t, UPDATE_MODE);
      && i < |input.fields| && IsKey(input.fields[i])
      && forall j | i < j < |input.fields| :: IsKey(input.fields[j]) ==> AttrKey(input.fields[j]) != AttrKey(input.fields[i])
    ensures var f := ctx.s[t.cls].fields[i];
      var r := DeleteItemOp(ctx, t);
      r.sent.Some? ==> (AttrKey(f) in r.sent.value.key
        && r.sent.value.key[AttrKey(f)] == Encode(ctx.fmt, f.ty, t.fields[f.name]))
  {
    var input := TableInput(ctx.s, ctx.fmt, ctx.clock, t, UPDATE_MODE);
    ResolveIsPass(ctx, t, UPDATE_MODE);
    PrefixAttrValue(input, |input.fields|, i);
    SettledOutsidePut(input, i);
  }

  /**
   `saveItem` of a record whose key field is empty, under a strategy other
   than `NONE` and with a type that can hold the generated key, writes the
   generated, non-null key back into the record it returns.
   */
  lemma SaveWritesGeneratedKey(ctx: Context, t: Value, i: nat)
    requires Accepts(ctx, t) && TableRecord(ctx, t)
    requires var input := TableInput(ctx.s, ctx.fmt, ctx.clock, t, PUT_MODE);
      && i < |input.fields| && IsKey(input.fields[i])
      && var f := input.fields[i];
        && t.fields[f.name].Null? && KeyStrategy(f) != GenNone
        && if KeyStrategy(f) == GenNum && (KeyPrefix(f).None? || KeyPrefix(f).value == "") then f.ty.Long? else f.ty.Str?
    ensures var input := TableInput(ctx.s, ctx.fmt, ctx.clock, t, PUT_MODE);
      var f := input.fields[i];
      var r := SaveItemOp(ctx, t);
      r.sent.Some? ==> (r.result == Ok(r.entity) && !r.entity.fields[f.name].Null?
        && r.entity.fields[f.name] == KeyOf(input, i).value.value && KeyOf(input, i).value.generated)
  {
    var input := TableInput(ctx.s, ctx.fmt, ctx.clock, t, PUT_MODE);
    SaveSendsRecord(ctx, t);
    PutGeneratesKey(input, i);
  }

  /** The key `getItem` sends is built from the metadata of the pass. */
  lemma GetItemSendsMeta(ctx: Context, store: Store, t: Value)
    requires Accepts(ctx, t) && TableRecord(ctx, t)
    ensures var input := TableInput(ctx.s, ctx.fmt, ctx.clock, t, GET_MODE);
      var p := Prefix(input, |input.fields|);
      var r := GetItemOp(ctx, store, t);
      r.sent.Some? ==> p.meta.Ok? && r.sent.value.itemKey == ItemKey(p.meta.value)
  {
    ResolveIsPass(ctx, t, GET_MODE);
  }

  /**
   When the store finds a non-empty item, `getItem` throws the instantiation
   failure of a class without an accessible no-argument constructor;
   otherwise it returns a fresh record exactly when every field whose wire
   name the item holds decodes to a value the field can hold. Each such field
   then holds its decoded value, and every other field the value the
   constructor left in it.
   */
  lemma GetItemResult(ctx: Context, store: Store, t: Value)
    requires Accepts(ctx, t) && TableRecord(ctx, t)
    ensures var r := GetItemOp(ctx, store, t);
      var c := ctx.s[t.cls];
      var fields := c.fields;
      r.sent.Some? && store.getItem(r.sent.value).Some? && store.getItem(r.sent.value).value != map[] ==>
        var wire := store.getItem(r.sent.value).value;
        && (c.init.None? ==> r.result == Err(Instantiation(t.cls)))
        && (c.init.Some? ==> (r.result.Ok? <==> forall i | 0 <= i < |fields| :: CodecProps.Storable(ctx.s, ctx.fmt, fields, wire, i)))
        && (r.result.Ok? ==> c.init.Some? && r.result.value.Some? && forall i | 0 <= i < |fields| ::
              && fields[i].name in r.result.value.value.fields
              && (CodecProps.Present(fields, wire, i) ==>
                    var d := Decode(ctx.s, ctx.fmt, fields[i].ty, wire[WireName(fields[i])], true);
                    d.Ok? && r.result.value.value.fields[fields[i].name] == d.value)
              && (!CodecProps.Present(fields, wire, i) ==>
                    r.result.value.value.fields[fields[i].name] == c.init.value[fields[i].name]))
  {
    var r := GetItemOp(ctx, store, t);
    var fields := ctx.s[t.cls].fields;
    if r.sent.Some? && store.getItem(r.sent.value).Some? && store.getItem(r.sent.value).value != map[] && ctx.s[t.cls].init.Some? {
      var wire := store.getItem(r.sent.value).value;
      var blank := ctx.s[t.cls].init.value;
      CodecProps.PopulateEntitySpec(ctx.s, ctx.fmt, t.cls, blank, wire);
      forall i | 0 <= i < |fields| && !CodecProps.Present(fields, wire, i)
        ensures forall j | 0 <= j < |fields| && CodecProps.Present(fields, wire, j) :: fields[j].name != fields[i].name
      {
      }
    }
  }

  /**
   `getItem` asks for the record's own key: the last hash key field's name
   bound to its value, encoded, unless a range key of the same name
   overrides it.
   */
  lemma GetItemHashKey(ctx: Context, store: Store, t: Value, i: nat)
    requires Accepts(ctx, t) && TableRecord(ctx, t)
    requires var input := TableInput(ctx.s, ctx.fmt, ctx.clock, t, GET_MODE);
      && LastHash(input, |input.fields|, i)
      && forall j | 0 <= j < |input.fields| && LastRange(input, |input.fields|, j) ::
           input.fields[j].rangeKey.value.name != input.fields[i].hashKey.value.name
    ensures var f := ctx.s[t.cls].fields[i];
      var r := GetItemOp(ctx, store, t);
      r.sent.Some? ==> (Some(f.hashKey.value.name) in r.sent.value.itemKey
        && r.sent.value.itemKey[Some(f.hashKey.value.name)] == Encode(ctx.fmt, f.ty, t.fields[f.name]))
  {
    var input := TableInput(ctx.s, ctx.fmt, ctx.clock, t, GET_MODE);
    var n := |input.fields|;
    GetItemSendsMeta(ctx, store, t);
    PrefixHashSlot(input, n, i);
    SettledOutsidePut(input, i);
    if !forall j | 0 <= j < n :: !IsRange(input.fields[j]) {
      var j := LastRangeExists(input, n);
      PrefixRangeSlot(input, n, j);
    } else {
      PrefixNoRange(input, n);
    }
  }

  /** `getItem` asks with the last range key field's name bound to its value, encoded. */
  lemma GetItemRangeKey(ctx: Context, store: Store, t: Value, j: nat)
    requires Accepts(ctx, t) && TableRecord(ctx, t)
    requires var input := TableInput(ctx.s, ctx.fmt, ctx.clock, t, GET_MODE);
      LastRange(input, |input.fields|, j)
    ensures var f := ctx.s[t.cls].fields[j];
      var r := GetItemOp(ctx, store, t);
      r.sent.Some? ==> (Some(f.rangeKey.value.name) in r.sent.value.itemKey
        && r.sent.value.itemKey[Some(f.rangeKey.value.name)] == Encode(ctx.fmt, f.ty, t.fields[f.name]))
  {
    var input := TableInput(ctx.s, ctx.fmt, ctx.clock, t, GET_MODE);
    GetItemSendsMeta(ctx, store, t);
    PrefixRangeSlot(input, |input.fields|, j);
    SettledOutsidePut(input, j);
  }

  /**
   A `@DDBTable` class without a hash key field is still sent: `getItem`
   puts its (null) hash key under the null name.
   */
  lemma GetItemNullKey(ctx: Context, store: Store, t: Value)
    requires Accepts(ctx, t) && TableRecord(ctx, t)
    requires forall j | 0 <= j < |ctx.s[t.cls].fields| :: ctx.s[t.cls].fields[j].hashKey.None?
    ensures var r := GetItemOp(ctx, store, t);
      r.sent.Some? ==> None in r.sent.value.itemKey
  {
    var input := TableInput(ctx.s, ctx.fmt, ctx.clock, t, GET_MODE);
    GetItemSendsMeta(ctx, store, t);
    PrefixNoHash(input, |input.fields|);
  }

  /** Some range key field is the last one. */
  lemma {:induction false} LastRangeExists(input: Input, n: nat) returns (j: nat)
    requires n <= |input.fields|
    requires !forall i | 0 <= i < n :: !IsRange(input.fields[i])
    ensures LastRange(input, n, j)
  {
    if IsRange(input.fields[n - 1]) {
      j := n - 1;
    } else {
      j := LastRangeExists(input, n - 1);
    }
  }

  /** The placeholders `queryByRangeKey` binds are the key slots of the pass's metadata. */
  lemma QuerySendsMeta(ctx: Context, store: Store, t: Value)
    requires Accepts(ctx, t) && TableRecord(ctx, t)
    ensures var input := TableInput(ctx.s, ctx.fmt, ctx.clock, t, GET_MODE);
      var p := Prefix(input, |input.fields|);
      var r := QueryOp(ctx, store, t);
      r.sent.Some? ==> (p.meta.Ok?
        && r.sent.value.values == map[PK := p.meta.value.hashKeyValue, TYPE_RANGE := p.meta.value.rangeKeyValue])
  {
    ResolveIsPass(ctx, t, GET_MODE);
  }

  /**
   `queryByRangeKey` returns one fresh record per item the query finds,
   each populated from its item, in order, exactly when every item can be
   populated; otherwise it throws the exception of the first item that
   cannot.
   */
  lemma QueryResult(ctx: Context, store: Store, t: Value)
    requires Accepts(ctx, t) && TableRecord(ctx, t)
    ensures var r := QueryOp(ctx, store, t);
      r.sent.Some? ==>
        var items := store.query(r.sent.value);
        && (r.result.Ok? <==> forall i | 0 <= i < |items| :: PopulateFresh(ctx.s, ctx.fmt, t.cls, items[i]).Ok?)
        && (r.result.Ok? ==> (|r.result.value| == |items|
              && forall i | 0 <= i < |items| :: r.result.value[i] == PopulateFresh(ctx.s, ctx.fmt, t.cls, items[i]).value))
        && (r.result.Err? ==> exists i | 0 <= i < |items| ::
              && (forall j | 0 <= j < i :: PopulateFresh(ctx.s, ctx.fmt, t.cls, items[j]).Ok?)
              && PopulateFresh(ctx.s, ctx.fmt, t.cls, items[i]).Err?
              && r.result == Err(PopulateFresh(ctx.s, ctx.fmt, t.cls, items[i]).error))
  {
    var r := QueryOp(ctx, store, t);
    if r.sent.Some? {
      PopulateAllSpec(ctx.s, ctx.fmt, t.cls, store.query(r.sent.value));
    }
  }

  /** `queryByRangeKey` binds `:pk` to the value of the last `@DDBHashKey` field, encoded. */
  lemma QueryBindsHash(ctx: Context, store: Store, t: Value, i: nat)
    requires Accepts(ctx, t) && TableRecord(ctx, t)
    requires var input := TableInput(ctx.s, ctx.fmt, ctx.clock, t, GET_MODE);
      LastHash(input, |input.fields|, i)
    ensures var f := ctx.s[t.cls].fields[i];
      var r := QueryOp(ctx, store, t);
      r.sent.Some? ==> r.sent.value.values[PK] == Encode(ctx.fmt, f.ty, t.fields[f.name])
  {
    var input := TableInput(ctx.s, ctx.fmt, ctx.clock, t, GET_MODE);
    QuerySendsMeta(ctx, store, t);
    PrefixHashSlot(input, |input.fields|, i);
    SettledOutsidePut(input, i);
  }

  /** `queryByRangeKey` binds `:typeRange` to the value of the last range key field, encoded. */
  lemma QueryBindsRange(ctx: Context, store: Store, t: Value, j: nat)
    requires Accepts(ctx, t) && TableRecord(ctx, t)
    requires var input := TableInput(ctx.s, ctx.fmt, ctx.clock, t, GET_MODE);
      LastRange(input, |input.fields|, j)
    ensures var f := ctx.s[t.cls].fields[j];
      var r := QueryOp(ctx, store, t);
      r.sent.Some? ==> r.sent.value.values[TYPE_RANGE] == Encode(ctx.fmt, f.ty, t.fields[f.name])
  {
    var input := TableInput(ctx.s, ctx.fmt, ctx.clock, t, GET_MODE);
    QuerySendsMeta(ctx, store, t);
    PrefixRangeSlot(input, |input.fields|, j);
    SettledOutsidePut(input, j);
  }

  /** A class without a hash key (range key) field has `:pk` (`:typeRange`) bound to null. */
  lemma QueryUnbound(ctx: Context, store: Store, t: Value)
    requires Accepts(ctx, t) && TableRecord(ctx, t)
    ensures var fields := ctx.s[t.cls].fields;
      var r := QueryOp(ctx, store, t);
      && (r.sent.Some? && (forall j | 0 <= j < |fields| :: fields[j].hashKey.None?) ==> r.sent.value.values[PK].None?)
      && (r.sent.Some? && (forall j | 0 <= j < |fields| :: !IsRange(fields[j])) ==> r.sent.value.values[TYPE_RANGE].None?)
  {
    var input := TableInput(ctx.s, ctx.fmt, ctx.clock, t, GET_MODE);
    QuerySendsMeta(ctx, store, t);
    if forall j | 0 <= j < |input.fields| :: input.fields[j].hashKey.None? {
      PrefixNoHash(input, |input.fields|);
    }
    if forall j | 0 <= j < |input.fields| :: !IsRange(input.fields[j]) {
      PrefixNoRange(input, |input.fields|);
    }
  }
}

=== FILE: resolver.dfy ===
/**
 `extractEntityMeta`: one pass over a `@DDBTable` record's declared fields
 that resolves the table name, the hash and range keys (generating them in
 PUT mode), the full attribute map and, in UPDATE mode, the update map.
 Generated keys are written back into the record as the pass goes.
 */
module Resolver {
  import opened Results
  import opened Wire
  import opened JavaValues
  import opened Descriptors
  import opened Codec
  import opened KeyGen

  /** The SDK's `AttributeAction`; the mapper only ever uses `ActionPut`. */
  datatype Action = ActionPut | ActionAdd | ActionDelete

  /** `AttributeValueUpdate`: a value (possibly null) and what to do with it. */
  datatype AttrUpdate = AttrUpdate(value: Option<AV>, action: Action)

  /** An attribute map as the mapper fills it: a null value is stored as `None`. */
  type AttrMap = map<string, Option<AV>>

  /** `DDBTableMeta`; names and key values start out null, the two maps empty. */
  datatype TableMeta = TableMeta(
    tableName: string,
    hashKeyName: Option<string>,
    hashKeyValue: Option<AV>,
    rangeKeyName: Option<string>,
    rangeKeyValue: Option<AV>,
    attributes: AttrMap,
    updates: map<string, AttrUpdate>)

  function EmptyMeta(table: string): TableMeta {
    TableMeta(table, None, None, None, None, map[], map[])
  }

  /**
   The state of the pass: the record's fields (generated keys written back)
   and the metadata so far, or the exception that stopped the pass. The
   fields written back before an exception stay written.
   */
  datatype Pass = Pass(fields: map<string, Value>, meta: Result<TableMeta>)

  /** The name and updateable flag of an ordinary field: `@DDBAttr`'s, or the Java name and `true`. */
  function AttrName(f: Field): string {
    if f.attr.Some? then f.attr.value.name else f.name
  }

  predicate Updateable(f: Field) {
    f.attr.None? || f.attr.value.updateable
  }

  const MODE_NOT_CORRECT := "CRUD mode not correct."
  const NO_RANGE_KEY := "NO Range Key"
  const TABLE_MISSING := "Entity no annotation present, like DDBTable."

  /**
   What a pass works on: the text conversions, what key generation reads
   from the environment for the `i`-th field (`clock(i)`), the mode, the
   table name, and the record's declared fields with their values on entry.
   */
  datatype Input = Input(
    fmt: Formats,
    clock: nat -> Draw,
    mode: int,
    table: string,
    fields: seq<Field>,
    start: map<string, Value>)

  /** Java's guarantees about a record: distinct field names, every field holding a value of its type. */
  predicate Valid(input: Input) {
    DistinctNames(input.fields) && Typed(input.fields, input.start)
  }

  /**
   The value the `i`-th field holds on entry. The pass reads each field
   before anything writes it (only a field's own step writes it back), so
   this is also the value the record holds when the pass reaches it.
   */
  function Current(input: Input, i: nat): (v: Value)
    requires Valid(input) && i < |input.fields|
    ensures Conforms(v, input.fields[i].ty)
  {
    input.start[input.fields[i].name]
  }

  /** The pass over the first `n` declared fields, stopping at the first exception. */
  function Prefix(input: Input, n: nat): Pass
    requires Valid(input) && n <= |input.fields|
    decreases n, 2
  {
    if n == 0 then Pass(input.start, Ok(EmptyMeta(input.table)))
    else StepAt(input, n)
  }

  /** The pass over field `n - 1`: an earlier exception propagates, otherwise the field's annotations decide. */
  function StepAt(input: Input, n: nat): Pass
    requires Valid(input) && 0 < n <= |input.fields|
    decreases n, 1
  {
    var prev := Prefix(input, n - 1);
    var f := input.fields[n - 1];
    if prev.meta.Err? then prev
    else if f.hashKey.Some? then HashKeyStep(input, n)
    else if f.rangeKey.Some? then RangeKeyStep(input, n)
    else if f.ignored then prev
    else AttributeStep(input, n)
  }

  /**
   A `@DDBHashKey` field: `keyGen` settles the key (writing back a generated
   one), and the key goes into the hash slot and the attribute map.
   */
  function HashKeyStep(input: Input, n: nat): Pass
    requires Valid(input) && 0 < n <= |input.fields|
    requires Prefix(input, n - 1).meta.Ok? && input.fields[n - 1].hashKey.Some?
    decreases n, 0
  {
    var st := Prefix(input, n - 1);
    var f := input.fields[n - 1];
    var h := f.hashKey.value;
    var meta := st.meta.value.(hashKeyName := Some(h.name));
    match KeyGen.KeyGen(input.mode, f, h.gen, Current(input, n - 1), None, input.clock(n - 1), input.fmt)
    case Err(e) => Pass(st.fields, Err(e))
    case Ok(k) =>
      var fields := if k.generated then st.fields[f.name := k.value] else st.fields;
      var av := Encode(input.fmt, f.ty, k.value);
      Pass(fields, Ok(meta.(hashKeyValue := av, attributes := meta.attributes[h.name := av])))
  }

  /**
   A `@DDBRangeKey` field: as a hash key, with the annotation's prefix; a
   null key value would be a `NO Range Key` exception when `required`.
   */
  function RangeKeyStep(input: Input, n: nat): Pass
    requires Valid(input) && 0 < n <= |input.fields|
    requires Prefix(input, n - 1).meta.Ok? && input.fields[n - 1].rangeKey.Some?
    decreases n, 0
  {
    var st := Prefix(input, n - 1);
    var f := input.fields[n - 1];
    var rk := f.rangeKey.value;
    var meta := st.meta.value.(rangeKeyName := Some(rk.name));
    match KeyGen.KeyGen(input.mode, f, rk.gen, Current(input, n - 1), Some(rk.prefix), input.clock(n - 1), input.fmt)
    case Err(e) => Pass(st.fields, Err(e))
    case Ok(k) =>
      var fields := if k.generated then st.fields[f.name := k.value] else st.fields;
      var av := Encode(input.fmt, f.ty, k.value);
      if av.Some? then
        Pass(fields, Ok(meta.(rangeKeyValue := av, attributes := meta.attributes[rk.name := av])))
      else if rk.required then Pass(fields, Err(NoKey(NO_RANGE_KEY)))
      else Pass(fields, Ok(meta))
  }

  /**
   Any other field not marked `@DDBIgnore`: in PUT and GET mode it goes into
   the attribute map, in UPDATE mode an updateable one goes into the update
   map; an updateable field in any other mode is an exception.
   */
  function AttributeStep(input: Input, n: nat): Pass
    requires Valid(input) && 0 < n <= |input.fields|
    requires Prefix(input, n - 1).meta.Ok?
    decreases n, 0
  {
    var st := Prefix(input, n - 1);
    var f := input.fields[n - 1];
    var meta := st.meta.value;
    var av := Encode(input.fmt, f.ty, Current(input, n - 1));
    if input.mode == PUT_MODE || input.mode == GET_MODE then
      Pass(st.fields, Ok(meta.(attributes := meta.attributes[AttrName(f) := av])))
    else if input.mode == UPDATE_MODE && Updateable(f) then
      Pass(st.fields, Ok(meta.(updates := meta.updates[AttrName(f) := AttrUpdate(av, ActionPut)])))
    else if Updateable(f) then Pass(st.fields, Err(ModelError(MODE_NOT_CORRECT)))
    else st
  }

  /**
   One more field: the pass stops at an exception, and otherwise either
   leaves the record alone or writes a value of the field's type into that
   field and no other.
   */
  lemma PrefixFrame(input: Input, n: nat) returns (v: Value)
    requires Valid(input) && 0 < n <= |input.fields|
    ensures Prefix(input, n - 1).meta.Err? ==> Prefix(input, n) == Prefix(input, n - 1)
    ensures Conforms(v, input.fields[n - 1].ty)
    ensures Prefix(input, n).fields == Prefix(input, n - 1).fields
      || Prefix(input, n).fields == Prefix(input, n - 1).fields[input.fields[n - 1].name := v]
  {
    var f := input.fields[n - 1];
    var prev := Prefix(input, n - 1);
    v := Current(input, n - 1);
    assert Prefix(input, n) == StepAt(input, n);
    if prev.meta.Err? {
    } else if f.hashKey.Some? {
      assert Prefix(input, n) == HashKeyStep(input, n);
      var kg := KeyGen.KeyGen(input.mode, f, f.hashKey.value.gen, v, None, input.clock(n - 1), input.fmt);
      if kg.Ok? {
        v := kg.value.value;
      }
    } else if f.rangeKey.Some? {
      assert Prefix(input, n) == RangeKeyStep(input, n);
      var kg := KeyGen.KeyGen(input.mode, f, f.rangeKey.value.gen, v, Some(f.rangeKey.value.prefix), input.clock(n - 1), input.fmt);
      if kg.Ok? {
        v := kg.value.value;
      }
    } else if !f.ignored {
      assert Prefix(input, n) == AttributeStep(input, n);
    }
  }

  /** A field the pass has not reached still holds its value on entry. */
  lemma {:induction false} PrefixNotReached(input: Input, n: nat, i: nat)
    requires Valid(input) && n <= i < |input.fields|
    ensures input.fields[i].name in Prefix(input, n).fields
    ensures Prefix(input, n).fields[input.fields[i].name] == Current(input, i)
  {
    if n > 0 {
      PrefixNotReached(input, n - 1, i);
      var _ := PrefixFrame(input, n);
      assert input.fields[n - 1].name != input.fields[i].name;
    }
  }

  /** The pass keeps every declared field holding a value of its type. */
  lemma {:induction false} PrefixTyped(input: Input, n: nat)
    requires Valid(input) && n <= |input.fields|
    ensures Typed(input.fields, Prefix(input, n).fields)
  {
    if n > 0 {
      PrefixTyped(input, n - 1);
      var v := PrefixFrame(input, n);
      var name := input.fields[n - 1].name;
      forall j | 0 <= j < |input.fields|
        ensures input.fields[j].name in Prefix(input, n).fields
        ensures Conforms(Prefix(input, n).fields[input.fields[j].name], input.fields[j].ty)
      {
        if j != n - 1 {
          assert input.fields[j].name != name;
        }
      }
    }
  }

  /** The pass `extractEntityMeta` runs over a record of a `@DDBTable` class. */
  function TableInput(s: Schema, fmt: Formats, clock: nat -> Draw, entity: Value, mode: int): (input: Input)
    requires JavaWellFormed(s)
    requires entity.ObjV? && entity.cls in s && s[entity.cls].table.Some?
    requires Typed(s[entity.cls].fields, entity.fields)
    ensures Valid(input)
  {
    var d := s[entity.cls];
    Input(fmt, clock, mode, d.table.value, d.fields, entity.fields)
  }

  /** What `extractEntityMeta` leaves behind: the record, and the metadata or the exception. */
  datatype Resolution = Resolution(entity: Value, meta: Result<TableMeta>)

  /**
   `extractEntityMeta(entity, option)`: resolve a record of a `@DDBTable`
   class; any other value is a DDBModelException. `clock(i)` is what the
   `i`-th field's key generation reads from the environment.
   */
  function Resolve(s: Schema, fmt: Formats, clock: nat -> Draw, entity: Value, mode: int): (r: Resolution)
    requires JavaWellFormed(s)
    requires entity.ObjV? && entity.cls in s ==> Typed(s[entity.cls].fields, entity.fields)
    ensures !(entity.ObjV? && entity.cls in s && s[entity.cls].table.Some?) ==>
      r == Resolution(entity, Err(ModelError(TABLE_MISSING)))
    ensures entity.ObjV? && entity.cls in s ==> InstanceOf(s, r.entity, entity.cls)
  {
    if entity.ObjV? && entity.cls in s && s[entity.cls].table.Some? then
      var input := TableInput(s, fmt, clock, entity, mode);
      PrefixTyped(input, |input.fields|);
      var p := Prefix(input, |input.fields|);
      Resolution(ObjV(entity.cls, p.fields), p.meta)
    else Resolution(entity, Err(ModelError(TABLE_MISSING)))
  }
}

=== FILE: resolver_props.dfy ===
/**
 What a pass of `extractEntityMeta` computes, stated against reference
 definitions of what each declared field contributes.
 */
module ResolverProps {
  import opened Results
  import opened Wire
  import opened JavaValues
  import opened Descriptors
  import opened Codec
  import opened KeyGen
  import opened Resolver

  /** A key field; `@DDBHashKey` wins over `@DDBRangeKey` when a field carries both. */
  predicate IsKey(f: Field) {
    f.hashKey.Some? || f.rangeKey.Some?
  }

  predicate IsRange(f: Field) {
    f.hashKey.None? && f.rangeKey.Some?
  }

  function KeyStrategy(f: Field): Gen
    requires IsKey(f)
  {
    if f.hashKey.Some? then f.hashKey.value.gen else f.rangeKey.value.gen
  }

  /** Hash keys are never prefixed; range keys carry their annotation's prefix. */
  function KeyPrefix(f: Field): Option<string>
    requires IsKey(f)
  {
    if f.hashKey.Some? then None else Some(f.rangeKey.value.prefix)
  }

  /** The attribute name a field is written under. */
  function AttrKey(f: Field): string {
    if f.hashKey.Some? then f.hashKey.value.name
    else if f.rangeKey.Some? then f.rangeKey.value.name
    else AttrName(f)
  }

  /** The key the `i`-th field settles on, given its value on entry. */
  function KeyOf(input: Input, i: nat): Result<Key>
    requires Valid(input) && i < |input.fields| && IsKey(input.fields[i])
  {
    var f := input.fields[i];
    KeyGen.KeyGen(input.mode, f, KeyStrategy(f), Current(input, i), KeyPrefix(f), input.clock(i), input.fmt)
  }

  /** A field the pass gets past without an exception. */
  predicate FieldOk(input: Input, i: nat)
    requires Valid(input) && i < |input.fields|
  {
    var f := input.fields[i];
    if IsKey(f) then KeyOf(input, i).Ok?
    else f.ignored || !Updateable(f) || input.mode in {GET_MODE, PUT_MODE, UPDATE_MODE}
  }

  /** The exception a field that is not `FieldOk` throws. */
  function FieldError(input: Input, i: nat): Error
    requires Valid(input) && i < |input.fields| && !FieldOk(input, i)
  {
    if IsKey(input.fields[i]) then KeyOf(input, i).error else ModelError(MODE_NOT_CORRECT)
  }

  /** The value a field holds once the pass is past it: a key field holds its settled key. */
  function Settled(input: Input, i: nat): (v: Value)
    requires Valid(input) && i < |input.fields|
    ensures Conforms(v, input.fields[i].ty)
  {
    if IsKey(input.fields[i]) && KeyOf(input, i).Ok? then KeyOf(input, i).value.value
    else Current(input, i)
  }

  /** Fields that land in the attribute map: keys always, other unignored fields in PUT and GET mode. */
  predicate WritesAttr(mode: int, f: Field) {
    IsKey(f) || (!f.ignored && (mode == PUT_MODE || mode == GET_MODE))
  }

  /** Fields that land in the update map: unignored updateable non-key fields in UPDATE mode. */
  predicate WritesUpdate(mode: int, f: Field) {
    mode == UPDATE_MODE && !IsKey(f) && !f.ignored && Updateable(f)
  }

  /** Outside PUT mode nothing is generated: a field that gets past `keyGen` keeps its own value. */
  lemma SettledOutsidePut(input: Input, i: nat)
    requires Valid(input) && i < |input.fields| && input.mode != PUT_MODE
    ensures Settled(input, i) == Current(input, i)
  {
  }

  /**
   In PUT mode an empty key field with a strategy other than `NONE` gets a
   key generated for it whenever its type can hold one (a `long` for an
   unprefixed `NUM` key, a `String` otherwise): it gets past `keyGen` and
   settles on the generated key, which is never null.
   */
  lemma PutGeneratesKey(input: Input, i: nat)
    requires Valid(input) && i < |input.fields| && IsKey(input.fields[i])
    requires input.mode == PUT_MODE && Current(input, i).Null? && KeyStrategy(input.fields[i]) != GenNone
    requires var f := input.fields[i];
      if KeyStrategy(f) == GenNum && (KeyPrefix(f).None? || KeyPrefix(f).value == "") then f.ty.Long? else f.ty.Str?
    ensures FieldOk(input, i)
    ensures KeyOf(input, i).value.generated
    ensures !Settled(input, i).Null? && Settled(input, i) == KeyOf(input, i).value.value
  {
  }

  /** Every field before index `n` is one the pass gets past. */
  predicate AllOk(input: Input, n: nat)
    requires Valid(input) && n <= |input.fields|
  {
    forall i | 0 <= i < n :: FieldOk(input, i)
  }

  /**
   One more field: an earlier exception propagates unchanged; otherwise the
   pass gets past the field exactly when it is `FieldOk`, and throws its
   `FieldError` when it is not.
   */
  lemma PrefixStep(input: Input, n: nat)
    requires Valid(input) && 0 < n <= |input.fields|
    ensures var prev := Prefix(input, n - 1);
      var p := Prefix(input, n);
      && (prev.meta.Err? ==> p == prev)
      && (prev.meta.Ok? ==> (p.meta.Ok? <==> FieldOk(input, n - 1)))
      && (prev.meta.Ok? && !FieldOk(input, n - 1) ==> p.meta == Err(FieldError(input, n - 1)))
  {
    var f := input.fields[n - 1];
    var prev := Prefix(input, n - 1);
    assert Prefix(input, n) == StepAt(input, n);
    if prev.meta.Ok? {
      if f.hashKey.Some? {
        assert Prefix(input, n) == HashKeyStep(input, n);
      } else if f.rangeKey.Some? {
        assert Prefix(input, n) == RangeKeyStep(input, n);
      } else if !f.ignored {
        assert Prefix(input, n) == AttributeStep(input, n);
      }
    }
  }

  /** Getting past field `n - 1` leaves it holding its settled value and changes nothing else in the record. */
  lemma PrefixStepFields(input: Input, n: nat)
    requires Valid(input) && 0 < n <= |input.fields|
    ensures var p := Prefix(input, n);
      var name := input.fields[n - 1].name;
      p.meta.Ok? ==> p.fields == Prefix(input, n - 1).fields[name := Settled(input, n - 1)]
  {
    var f := input.fields[n - 1];
    var prev := Prefix(input, n - 1);
    PrefixNotReached(input, n - 1, n - 1);
    assert prev.fields[f.name := Current(input, n - 1)] == prev.fields;
    assert Prefix(input, n) == StepAt(input, n);
    if prev.meta.Ok? {
      if f.hashKey.Some? {
        assert Prefix(input, n) == HashKeyStep(input, n);
      } else if f.rangeKey.Some? {
        assert Prefix(input, n) == RangeKeyStep(input, n);
      } else if !f.ignored {
        assert Prefix(input, n) == AttributeStep(input, n);
      }
    }
  }

  /** What getting past field `n - 1` does to the metadata. */
  lemma PrefixStepMeta(input: Input, n: nat)
    requires Valid(input) && 0 < n <= |input.fields|
    ensures var prev := Prefix(input, n - 1);
      var p := Prefix(input, n);
      var f := input.fields[n - 1];
      var av := Encode(input.fmt, f.ty, Settled(input, n - 1));
      p.meta.Ok? ==>
        && prev.meta.Ok?
        && var m := prev.meta.value;
        && p.meta.value.tableName == m.tableName
        && p.meta.value.attributes == (if WritesAttr(input.mode, f) then m.attributes[AttrKey(f) := av] else m.attributes)
        && p.meta.value.updates ==
             (if WritesUpdate(input.mode, f) then m.updates[AttrName(f) := AttrUpdate(av, ActionPut)] else m.updates)
        && p.meta.value.hashKeyName == (if f.hashKey.Some? then Some(f.hashKey.value.name) else m.hashKeyName)
        && p.meta.value.hashKeyValue == (if f.hashKey.Some? then av else m.hashKeyValue)
        && p.meta.value.rangeKeyName == (if IsRange(f) then Some(f.rangeKey.value.name) else m.rangeKeyName)
        && p.meta.value.rangeKeyValue == (if IsRange(f) then av else m.rangeKeyValue)
  {
    var f := input.fields[n - 1];
    var prev := Prefix(input, n - 1);
    assert Prefix(input, n) == StepAt(input, n);
    if prev.meta.Ok? {
      if f.hashKey.Some? {
        assert Prefix(input, n) == HashKeyStep(input, n);
      } else if f.rangeKey.Some? {
        assert Prefix(input, n) == RangeKeyStep(input, n);
      } else if !f.ignored {
        assert Prefix(input, n) == AttributeStep(input, n);
      }
    }
  }

  /** The pass over the first `n` fields succeeds exactly when each of them is `FieldOk`. */
  lemma {:induction false} PrefixSucceeds(input: Input, n: nat)
    requires Valid(input) && n <= |input.fields|
    ensures Prefix(input, n).meta.Ok? <==> AllOk(input, n)
  {
    if n > 0 {
      PrefixSucceeds(input, n - 1);
      PrefixStep(input, n);
      assert AllOk(input, n) <==> AllOk(input, n - 1) && FieldOk(input, n - 1);
    }
  }

  /**
   After a successful pass every field it reached holds its settled value (a
   key field the key `keyGen` settled on, any other field its own value), and
   every field it did not reach holds its value on entry.
   */
  lemma {:induction false} PrefixWriteBack(input: Input, n: nat)
    requires Valid(input) && n <= |input.fields|
    ensures var p := Prefix(input, n);
      p.meta.Ok? ==> forall i | 0 <= i < |input.fields| ::
        input.fields[i].name in p.fields
        && p.fields[input.fields[i].name] == (if i < n then Settled(input, i) else Current(input, i))
  {
    var p := Prefix(input, n);
    if n > 0 && p.meta.Ok? {
      PrefixStep(input, n);
      PrefixWriteBack(input, n - 1);
      PrefixStepFields(input, n);
      var prev := Prefix(input, n - 1);
      var name := input.fields[n - 1].name;
      forall i | 0 <= i < |input.fields|
        ensures input.fields[i].name in p.fields
        ensures p.fields[input.fields[i].name] == (if i < n then Settled(input, i) else Current(input, i))
      {
        if i != n - 1 {
          assert input.fields[i].name != name;
        }
      }
    }
  }

  /** The first field before index `n` that is not `FieldOk`. */
  lemma {:induction false} FirstFailure(input: Input, n: nat) returns (i: nat)
    requires Valid(input) && n <= |input.fields|
    requires !AllOk(input, n)
    ensures i < n && AllOk(input, i) && !FieldOk(input, i)
  {
    if AllOk(input, n - 1) {
      i := n - 1;
    } else {
      i := FirstFailure(input, n - 1);
    }
  }

  /** The first field the pass cannot get past decides the exception it ends with. */
  lemma {:induction false} PrefixError(input: Input, n: nat, i: nat)
    requires Valid(input) && n <= |input.fields|
    requires i < n && AllOk(input, i) && !FieldOk(input, i)
    ensures Prefix(input, n).meta == Err(FieldError(input, i))
  {
    PrefixStep(input, n);
    if n == i + 1 {
      PrefixSucceeds(input, i);
    } else {
      PrefixError(input, n - 1, i);
    }
  }

  /** A pass that ends in an exception ends in the exception of the first field it could not get past. */
  lemma PrefixFails(input: Input, n: nat) returns (i: nat)
    requires Valid(input) && n <= |input.fields|
    requires Prefix(input, n).meta.Err?
    ensures i < n && AllOk(input, i) && !FieldOk(input, i)
    ensures Prefix(input, n).meta == Err(FieldError(input, i))
  {
    PrefixSucceeds(input, n);
    i := FirstFailure(input, n);
    PrefixError(input, n, i);
  }

  /**
   The `NO Range Key` exception is never thrown: a range key that survives
   `keyGen` is never null, so the `required` flag of `@DDBRangeKey` has no
   effect.
   */
  lemma RangeRequiredIsDead(input: Input, n: nat)
    requires Valid(input) && n <= |input.fields|
    ensures Prefix(input, n).meta != Err(NoKey(NO_RANGE_KEY))
  {
    if Prefix(input, n).meta.Err? {
      var i := PrefixFails(input, n);
      if IsKey(input.fields[i]) {
        var message := input.fields[i].name + "'s value is required.";
        assert message[|message| - 1] == '.';
        assert NO_RANGE_KEY[|NO_RANGE_KEY| - 1] == 'y';
      }
    }
  }

  /** Outside PUT mode no key is generated, so the record comes back as it went in, even after an exception. */
  lemma {:induction false} OnlyPutWritesBack(input: Input, n: nat)
    requires Valid(input) && n <= |input.fields|
    requires input.mode != PUT_MODE
    ensures Prefix(input, n).fields == input.start
  {
    if n > 0 {
      OnlyPutWritesBack(input, n - 1);
      var f := input.fields[n - 1];
      assert Prefix(input, n) == StepAt(input, n);
      if Prefix(input, n - 1).meta.Ok? {
        if f.hashKey.Some? {
          assert Prefix(input, n) == HashKeyStep(input, n);
        } else if f.rangeKey.Some? {
          assert Prefix(input, n) == RangeKeyStep(input, n);
        }
      }
    }
  }

  /** A field before index `n` that lands in the attribute map under `k`. */
  predicate WritesAttrAt(input: Input, n: nat, k: string)
    requires n <= |input.fields|
  {
    exists i | 0 <= i < n :: WritesAttr(input.mode, input.fields[i]) && AttrKey(input.fields[i]) == k
  }

  /** A field before index `n` that lands in the update map under `k`. */
  predicate WritesUpdateAt(input: Input, n: nat, k: string)
    requires n <= |input.fields|
  {
    exists i | 0 <= i < n :: WritesUpdate(input.mode, input.fields[i]) && AttrName(input.fields[i]) == k
  }

  /** A successful pass keeps the table name it started with. */
  lemma {:induction false} PrefixKeepsTable(input: Input, n: nat)
    requires Valid(input) && n <= |input.fields|
    ensures var p := Prefix(input, n);
      p.meta.Ok? ==> p.meta.value.tableName == input.table
  {
    if n > 0 {
      PrefixStepMeta(input, n);
      PrefixKeepsTable(input, n - 1);
    }
  }

  /** The attribute map of a successful pass holds exactly the names of the fields that write it. */
  lemma {:induction false} PrefixAttrKeys(input: Input, n: nat)
    requires Valid(input) && n <= |input.fields|
    ensures var p := Prefix(input, n);
      p.meta.Ok? ==> forall k :: k in p.meta.value.attributes <==> WritesAttrAt(input, n, k)
  {
    var p := Prefix(input, n);
    if n > 0 && p.meta.Ok? {
      PrefixAttrKeys(input, n - 1);
      PrefixStepMeta(input, n);
      var f := input.fields[n - 1];
      forall k
        ensures k in p.meta.value.attributes <==> WritesAttrAt(input, n, k)
      {
        if WritesAttrAt(input, n, k) && !WritesAttrAt(input, n - 1, k) {
          var i :| 0 <= i < n && WritesAttr(input.mode, input.fields[i]) && AttrKey(input.fields[i]) == k;
          assert i == n - 1;
        }
        if WritesAttr(input.mode, f) && AttrKey(f) == k {
          assert WritesAttrAt(input, n, k);
        }
        if WritesAttrAt(input, n - 1, k) {
          var i :| 0 <= i < n - 1 && WritesAttr(input.mode, input.fields[i]) && AttrKey(input.fields[i]) == k;
          assert WritesAttrAt(input, n, k);
        }
      }
    }
  }

  /** The update map of a successful pass holds exactly the names of the fields that write it. */
  lemma {:induction false} PrefixUpdateKeys(input: Input, n: nat)
    requires Valid(input) && n <= |input.fields|
    ensures var p := Prefix(input, n);
      p.meta.Ok? ==> forall k :: k in p.meta.value.updates <==> WritesUpdateAt(input, n, k)
  {
    var p := Prefix(input, n);
    if n > 0 && p.meta.Ok? {
      PrefixUpdateKeys(input, n - 1);
      PrefixStepMeta(input, n);
      var f := input.fields[n - 1];
      forall k
        ensures k in p.meta.value.updates <==> WritesUpdateAt(input, n, k)
      {
        if WritesUpdateAt(input, n, k) && !WritesUpdateAt(input, n - 1, k) {
          var i :| 0 <= i < n && WritesUpdate(input.mode, input.fields[i]) && AttrName(input.fields[i]) == k;
          assert i == n - 1;
        }
        if WritesUpdate(input.mode, f) && AttrName(f) == k {
          assert WritesUpdateAt(input, n, k);
        }
        if WritesUpdateAt(input, n - 1, k) {
          var i :| 0 <= i < n - 1 && WritesUpdate(input.mode, input.fields[i]) && AttrName(input.fields[i]) == k;
          assert WritesUpdateAt(input, n, k);
        }
      }
    }
  }

  /** In the attribute map the last field written under a name decides its value: that field's settled value, encoded. */
  lemma {:induction false} PrefixAttrValue(input: Input, n: nat, i: nat)
    requires Valid(input) && i < n <= |input.fields|
    requires WritesAttr(input.mode, input.fields[i])
    requires forall j | i < j < n :: WritesAttr(input.mode, input.fields[j]) ==> AttrKey(input.fields[j]) != AttrKey(input.fields[i])
    ensures var p := Prefix(input, n);
      var f := input.fields[i];
      p.meta.Ok? ==> (AttrKey(f) in p.meta.value.attributes
        && p.meta.value.attributes[AttrKey(f)] == Encode(input.fmt, f.ty, Settled(input, i)))
  {
    PrefixStepMeta(input, n);
    if i < n - 1 {
      PrefixAttrValue(input, n - 1, i);
    }
  }

  /** In the update map the last field written under a name decides its value: a PUT of that field's value, encoded. */
  lemma {:induction false} PrefixUpdateValue(input: Input, n: nat, i: nat)
    requires Valid(input) && i < n <= |input.fields|
    requires WritesUpdate(input.mode, input.fields[i])
    requires forall j | i < j < n :: WritesUpdate(input.mode, input.fields[j]) ==> AttrName(input.fields[j]) != AttrName(input.fields[i])
    ensures var p := Prefix(input, n);
      var f := input.fields[i];
      p.meta.Ok? ==> (AttrName(f) in p.meta.value.updates
        && p.meta.value.updates[AttrName(f)] == AttrUpdate(Encode(input.fmt, f.ty, Current(input, i)), ActionPut))
  {
    PrefixStepMeta(input, n);
    if i < n - 1 {
      PrefixUpdateValue(input, n - 1, i);
    }
  }

  /** The last `@DDBHashKey` field before index `n`, if any. */
  predicate LastHash(input: Input, n: nat, i: nat)
    requires n <= |input.fields|
  {
    i < n && input.fields[i].hashKey.Some? && forall j | i < j < n :: input.fields[j].hashKey.None?
  }

  /** The last range key field (one that is not also the hash key) before index `n`, if any. */
  predicate LastRange(input: Input, n: nat, i: nat)
    requires n <= |input.fields|
  {
    i < n && IsRange(input.fields[i]) && forall j | i < j < n :: !IsRange(input.fields[j])
  }

  /** The hash key slot of a successful pass is empty until a `@DDBHashKey` field is reached. */
  lemma {:induction false} PrefixNoHash(input: Input, n: nat)
    requires Valid(input) && n <= |input.fields|
    requires forall j | 0 <= j < n :: input.fields[j].hashKey.None?
    ensures var p := Prefix(input, n);
      p.meta.Ok? ==> p.meta.value.hashKeyName.None? && p.meta.value.hashKeyValue.None?
  {
    if n > 0 {
      PrefixStepMeta(input, n);
      PrefixNoHash(input, n - 1);
    }
  }

  /** The last `@DDBHashKey` field decides the hash key slot: its name and its settled value, encoded. */
  lemma {:induction false} PrefixHashSlot(input: Input, n: nat, i: nat)
    requires Valid(input) && n <= |input.fields| && LastHash(input, n, i)
    ensures var p := Prefix(input, n);
      var f := input.fields[i];
      p.meta.Ok? ==>
        p.meta.value.hashKeyName == Some(f.hashKey.value.name)
        && p.meta.value.hashKeyValue == Encode(input.fmt, f.ty, Settled(input, i))
  {
    PrefixStepMeta(input, n);
    if i < n - 1 {
      PrefixHashSlot(input, n - 1, i);
    }
  }

  /** The range key slot of a successful pass is empty until a range key field is reached. */
  lemma {:induction false} PrefixNoRange(input: Input, n: nat)
    requires Valid(input) && n <= |input.fields|
    requires forall j | 0 <= j < n :: !IsRange(input.fields[j])
    ensures var p := Prefix(input, n);
      p.meta.Ok? ==> p.meta.value.rangeKeyName.None? && p.meta.value.rangeKeyValue.None?
  {
    if n > 0 {
      PrefixStepMeta(input, n);
      PrefixNoRange(input, n - 1);
    }
  }

  /** The last range key field decides the range key slot: its name and its settled value, encoded. */
  lemma {:induction false} PrefixRangeSlot(input: Input, n: nat, i: nat)
    requires Valid(input) && n <= |input.fields| && LastRange(input, n, i)
    ensures var p := Prefix(input, n);
      var f := input.fields[i];
      p.meta.Ok? ==>
        p.meta.value.rangeKeyName == Some(f.rangeKey.value.name)
        && p.meta.value.rangeKeyValue == Encode(input.fmt, f.ty, Settled(input, i))
  {
    PrefixStepMeta(input, n);
    if i < n - 1 {
      PrefixRangeSlot(input, n - 1, i);
    }
  }

  /**
   `extractEntityMeta` on a record of a `@DDBTable` class succeeds exactly
   when every declared field is `FieldOk`, and then names the class's table
   and leaves every field holding its settled value; otherwise it throws the
   exception of the first field that is not. Outside PUT mode the record
   comes back unchanged.
   */
  lemma ResolveOutcome(s: Schema, fmt: Formats, clock: nat -> Draw, entity: Value, mode: int)
    requires JavaWellFormed(s)
    requires entity.ObjV? && entity.cls in s && s[entity.cls].table.Some?
    requires Typed(s[entity.cls].fields, entity.fields)
    ensures var input := TableInput(s, fmt, clock, entity, mode);
      var r := Resolve(s, fmt, clock, entity, mode);
      var n := |input.fields|;
      && r.entity.ObjV? && r.entity.cls == entity.cls
      && (r.meta.Ok? <==> AllOk(input, n))
      && (r.meta.Ok? ==> r.meta.value.tableName == s[entity.cls].table.value)
      && (r.meta.Ok? ==> forall i | 0 <= i < n :: r.entity.fields[input.fields[i].name] == Settled(input, i))
      && (r.meta.Err? ==> exists i | 0 <= i < n :: AllOk(input, i) && !FieldOk(input, i) && r.meta == Err(FieldError(input, i)))
      && (mode != PUT_MODE ==> r.entity == entity)
  {
    var input := TableInput(s, fmt, clock, entity, mode);
    var n := |input.fields|;
    PrefixSucceeds(input, n);
    PrefixKeepsTable(input, n);
    PrefixWriteBack(input, n);
    if Prefix(input, n).meta.Err? {
      var i := PrefixFails(input, n);
    }
    if mode != PUT_MODE {
      OnlyPutWritesBack(input, n);
    }
  }

  /**
   `populateEntity` reads a field back under the name `extractEntityMeta`
   wrote it under, except when a key field also carries `@DDBAttr` with a
   different name: the write takes the key annotation's name, the read
   takes `@DDBAttr`'s.
   */
  lemma ReadNameIsWriteName(f: Field)
    ensures WireName(f) == AttrKey(f) <==> (f.attr.None? || !IsKey(f) || f.attr.value.name == AttrKey(f))
  {
  }
}

=== FILE: results.dfy ===
/**
 Failure-carrying results of the mapper. Every exception the mapper or the
 reflection calls it makes can throw becomes an `Error` value.
 */
module Results {

  datatype Option<+T> = None | Some(value: T)

  /** The exceptions the mapping engine raises or lets through. */
  datatype Error =
    | ModelError(msg: string)        // DDBModelException
    | NoKey(msg: string)             // NOKeyException
    | IllegalArgument(field: string) // Field.set of null into a primitive field, or of a key of another class
    | ClassNotFound(name: string)    // Class.forName on a name that is not a schema class
    | ClassCast                      // a raw List/Map field has no ParameterizedType
    | NumberFormat(text: string)     // new Integer / new Long / new Double / new Float
    | DateParse(text: string)        // ParseException from the ISO-8601 formatter
    | Instantiation(cls: string)     // Class.newInstance() without an accessible no-argument constructor

  datatype Result<+T> = Ok(value: T) | Err(error: Error) {
    predicate IsFailure() {
      Err?
    }

    function PropagateFailure<U>(): Result<U>
      requires Err?
    {
      Err(error)
    }

    function Extract(): T
      requires Ok?
    {
      value
    }
  }
}

=== FILE: wire.dfy ===
/**
 The store's tagged wire value (the SDK's `AttributeValue`) restricted to the
 five kinds the mapper produces, with the SDK accessors the decoder reads.
 */
module Wire {
  import opened Results

  datatype AV =
    | N(n: string)              // number, in decimal text form
    | S(s: string)              // string
    | Bool(b: bool)             // boolean
    | L(l: seq<AV>)             // list
    | M(m: map<string, AV>)     // string-keyed map (document)

  /** An item or key as the store exchanges it. */
  type WireMap = map<string, AV>

  /** `av.n()`: the number text, or null for any other kind. */
  function NumberOf(av: AV): Option<string> {
    if av.N? then Some(av.n) else None
  }

  /** `av.s()`: the string, or null for any other kind. */
  function StringOf(av: AV): Option<string> {
    if av.S? then Some(av.s) else None
  }

  /** `av.bool()`: the boolean, or null for any other kind. */
  function BoolOf(av: AV): Option<bool> {
    if av.Bool? then Some(av.b) else None
  }

  /** `av.l()`: the elements, or the SDK's empty auto-constructed list for any other kind. */
  function ListOf(av: AV): (r: seq<AV>)
    ensures forall x | x in r :: x < av
  {
    if av.L? then av.l else []
  }

  /** `av.m()`: the entries, or the SDK's empty auto-constructed map for any other kind. */
  function MapOf(av: AV): (r: WireMap)
    ensures forall k | k in r :: r[k] < av
  {
    if av.M? then av.m else map[]
  }
}
